=== FILE: README.md ===
# Kitchen Compass stores and recipe logic, modelled in Dafny

This project models the state logic of a browser-based recipe and pantry
manager. The pieces modelled are:

- the four stores: pantry, recipe catalog, shopping list and meal plans;
- the rules inside four recipe components: the recipe detail page, the
  recipe list, the recipe form and the recipe card.

Each store is a `seq` of immutable records, and every store operation is a
pure function from the old list to the new one. Fresh ids (`crypto.randomUUID`
in the program) are parameters, with a precondition that no record already
carries them. Dates are `Instant(day, time)`: "same day" compares `day`, and
instants are ordered by day first, then by time of day.

Modules, one per source file:

| module | file | source |
|---|---|---|
| `Types` | types.dfy | src/types/index.ts |
| `Seqs` | seqs.dfy | order-preserving filter and subsequences, the `Array.prototype.filter` that all stores use |
| `Text` | text.dfy | ASCII `toLowerCase`, `trim`, `includes`, decimal rendering |
| `Pantry` | pantry.dfy | src/context/PantryContext.tsx |
| `Recipes` | catalog.dfy | src/context/RecipeContext.tsx |
| `ShoppingList` | shopping.dfy | src/context/ShoppingListContext.tsx |
| `MealPlans` | meal_plan.dfy | src/context/MealPlanContext.tsx |
| `RecipeDetail` | recipe_detail.dfy | src/components/recipes/RecipeDetail.tsx |
| `RecipeFilter` | recipe_list.dfy | src/components/recipes/RecipeList.tsx |
| `RecipeForm` | recipe_form.dfy | src/components/recipes/RecipeForm.tsx |
| `RecipeCard` | recipe_card.dfy | src/components/recipes/RecipeCard.tsx |

Two modelling choices follow the code closely:

- `dietaryTags` and `mealType` are arrays (src/types/index.ts:26-27), and
  the model keeps them as ordered sequences. Duplicates and order are
  preserved, and the card shows the first three tags and the first meal type.
- The recipe list keeps a `matchThreshold` slider state (RecipeList.tsx:40).
  The page renders it as the slider's label, value and caption
  (RecipeList.tsx:151-161), but the filter never reads it. So
  `RecipeFilter.FilterRecipes` has no threshold, and the slider-aware list
  is a separate member (see "## Findings").

## Model

| member | source | states |
|---|---|---|
| Types.EnumerationsClosed | src/types/index.ts:16-42 | the six ingredient categories and five meal types are the only values, and the listed enumerations hold each exactly once |
| Text.Lower | src/context/PantryContext.tsx:81-85 | lower-casing keeps length, turns each ASCII capital into its small letter (code + 32) and changes nothing else |
| Text.TrimEmptyIffBlank | src/components/recipes/RecipeForm.tsx:87-88 | a string trims to "" exactly when every character is whitespace |
| Text.Contains | src/components/recipes/RecipeList.tsx:60 | `includes` holds exactly when the term occurs at some position |
| Text.NatToStringInjective | src/components/recipes/RecipeForm.tsx:105-108 | different numbers render as different decimal strings |
| Pantry.HasIngredient | src/context/PantryContext.tsx:81-85 | true exactly when some entry's name equals the query up to case |
| Pantry.HasIngredientFoldsCaseOnly | src/context/PantryContext.tsx:81-85 | names equal up to case give the same answer; a match has the query's exact length, so there is no trimming or substring match |
| Pantry.NoPluralMatching | src/context/PantryContext.tsx:81-85 | "Tomato" in the pantry satisfies "tomato" but not "Tomatoes" |
| Pantry.AddToPantry | src/context/PantryContext.tsx:38-45 | one entry appended under the fresh id with the draft's fields; earlier entries are a prefix; no merge by name |
| Pantry.AddThenHas | src/context/PantryContext.tsx:38-45 | after adding an ingredient, `hasIngredient` of its name is true |
| Pantry.AddKeepsIdsUnique | src/context/PantryContext.tsx:38-45 | adding under a fresh id keeps ids unique |
| Pantry.RemoveFromPantry | src/context/PantryContext.tsx:51-52 | no entry with the id remains; the others stay, in order, every copy kept; an absent id changes nothing |
| Pantry.RemoveIdempotent | src/context/PantryContext.tsx:51-52 | removing twice equals removing once |
| Pantry.UpdatePantryItem | src/context/PantryContext.tsx:59-62 | length kept; matching entries get the patch merged in; all others unchanged |
| Pantry.UpdateNoOp | src/context/PantryContext.tsx:59-62 | an unknown id or an empty patch leaves the pantry unchanged |
| Pantry.ClearPantry | src/context/PantryContext.tsx:69-70 | afterwards no name is available and every id is free |
| Pantry.ClearedHasNothing | src/context/PantryContext.tsx:69-70 | after clearing, no name is available |
| Pantry.GetIngredientsByCategory | src/context/PantryContext.tsx:77-79 | exactly the entries of that category, as an ordered subsequence, each as often as in the pantry |
| Pantry.CategoriesPartition | src/context/PantryContext.tsx:77-79 | every entry, with all its copies, lies in its own category's view, and the six views' sizes add up to the pantry's |
| Recipes.FindById | src/context/RecipeContext.tsx:74-76 | none exactly when no recipe has the id; otherwise the first recipe carrying it |
| Recipes.FindByIdConcat | src/context/RecipeContext.tsx:74-76 | searching `a ++ b` searches `a` first, then `b` |
| Recipes.GetRecipeById | src/context/RecipeContext.tsx:74-76 | a built-in with the id wins; otherwise the first user recipe with it; undefined exactly when neither pool has it |
| Recipes.AvailableCount | src/context/RecipeContext.tsx:82-85 | the number of line positions whose name `hasIngredient` accepts, optional lines included |
| Recipes.MatchRatio | src/context/RecipeContext.tsx:81-87 | available lines over all lines, so in [0,1]; 0 without ingredients; 1 exactly when there are lines and all are available; 0 exactly when none is |
| Recipes.RatioIgnoresOptional | src/context/RecipeContext.tsx:82-85 | the ratio depends only on the ingredient names, so optional lines count on both sides |
| Recipes.MissingOf | src/context/RecipeContext.tsx:102-104 | the ordered subsequence of lines that are neither optional nor in the pantry: all of them, each as often as in the recipe |
| Recipes.GetMissingIngredients | src/context/RecipeContext.tsx:98-105 | [] for an unknown id; otherwise every required line of the found recipe that the pantry lacks, and nothing else |
| Recipes.MatchScenario | src/context/RecipeContext.tsx:81-105 | with Egg and Milk in the pantry, a recipe needing Egg, Milk and Flour has ratio 2/3 and only Flour missing |
| Recipes.MissingAtMostUnavailable | src/context/RecipeContext.tsx:82-104 | no line is both missing and available, so missing + available is at most the line count |
| Recipes.FullMatchNothingMissing | src/context/RecipeContext.tsx:87-104 | a ratio of 1 leaves nothing missing |
| Recipes.SortByRatio | src/context/RecipeContext.tsx:95 | sorted by non-increasing ratio and a permutation of its input |
| Recipes.SortStable | src/context/RecipeContext.tsx:95 | among equal ratios the sort keeps input order |
| Recipes.Rank | src/context/RecipeContext.tsx:94-95 | sorted, every ratio at least the threshold, and a permutation of the threshold filter |
| Recipes.RankStable | src/context/RecipeContext.tsx:94-95 | for each ratio at or above the threshold, the recipes of that ratio come out in input order; none below it survives |
| Recipes.GetMatchingRecipes | src/context/RecipeContext.tsx:78-96 | over built-ins ++ user recipes with default threshold 0.7: sorted; every entry carries its true ratio ≥ threshold; a permutation of exactly the scored recipes reaching the threshold |
| Recipes.GetMatchingRecipesStable | src/context/RecipeContext.tsx:79-95 | tied recipes keep their built-ins ++ user-recipes order |
| Recipes.EmptyRecipeNeverRanked | src/context/RecipeContext.tsx:87-94 | a recipe without ingredients passes no positive threshold |
| Recipes.RankScenario | src/context/RecipeContext.tsx:94-95 | ratios 1.0, 0.5, 0.8 at threshold 0.7 give the 1.0 and the 0.8 recipe, in that order |
| Recipes.AddRecipe | src/context/RecipeContext.tsx:43-49 | built-ins unchanged; one recipe appended to the user pool under the fresh id; lookup by that id finds it |
| Recipes.UpdateRecipe | src/context/RecipeContext.tsx:56-58 | built-ins unchanged; only user recipes with the id are patched |
| Recipes.DeleteRecipe | src/context/RecipeContext.tsx:66-67 | built-ins unchanged; no user recipe with the id remains; others kept in order, every copy kept |
| Recipes.BuiltInLookupStable | src/context/RecipeContext.tsx:56-76 | no update or delete changes what a lookup of a built-in id returns |
| ShoppingList.AddToShoppingList | src/context/ShoppingListContext.tsx:38-45 | one unchecked item appended under the fresh id with the draft's fields; the old list is a prefix; no merge by name |
| ShoppingList.AddKeepsIdsUnique | src/context/ShoppingListContext.tsx:38-45 | adding under a fresh id keeps ids unique |
| ShoppingList.AddedSurvivesClearChecked | src/context/ShoppingListContext.tsx:38-81 | a new item starts unchecked, so `clearCheckedItems` keeps it |
| ShoppingList.RemoveFromShoppingList | src/context/ShoppingListContext.tsx:52-53 | no item with the id remains; others kept in order, every copy kept; an absent id changes nothing |
| ShoppingList.RemoveIdempotent | src/context/ShoppingListContext.tsx:52-53 | removing twice equals removing once |
| ShoppingList.UpdateShoppingListItem | src/context/ShoppingListContext.tsx:60-63 | length kept; only items with the id change, by merging the patch |
| ShoppingList.UpdateNoOp | src/context/ShoppingListContext.tsx:60-63 | an unknown id or an empty patch leaves the list unchanged |
| ShoppingList.ToggleItemChecked | src/context/ShoppingListContext.tsx:66-69 | length and every ingredient kept; `checked` flips exactly on the items with the id |
| ShoppingList.ToggleTwice | src/context/ShoppingListContext.tsx:66-69 | toggling twice restores the list |
| ShoppingList.ClearCheckedItems | src/context/ShoppingListContext.tsx:80-81 | no checked item remains; every unchecked item is kept, in order, with all its copies |
| ShoppingList.ClearCheckedIdempotent | src/context/ShoppingListContext.tsx:80-81 | clearing twice equals clearing once; with nothing checked the list is unchanged |
| ShoppingList.ClearShoppingList | src/context/ShoppingListContext.tsx:72-73 | afterwards every id is free, the ids are unique and clearing the checked items changes nothing |
| ShoppingList.ClearEmpties | src/context/ShoppingListContext.tsx:72-73 | clearing yields the empty list |
| MealPlans.GetMealPlanByDate | src/context/MealPlanContext.tsx:84-86 | the first plan on the same calendar day; none exactly when no plan is on that day |
| MealPlans.LookupIgnoresTimeOfDay | src/context/MealPlanContext.tsx:45-51 | two instants on the same day find the same plan |
| MealPlans.IndexOnDayFollowsDates | src/context/MealPlanContext.tsx:84-86 | the plan a lookup finds depends only on the plans' dates |
| MealPlans.AddMealPlan | src/context/MealPlanContext.tsx:53-59 | one plan appended under the fresh id |
| MealPlans.AddMealPlanKeepsIdsUnique | src/context/MealPlanContext.tsx:53-59 | adding under a fresh id keeps plan ids unique |
| MealPlans.AddMealPlanThenLookup | src/context/MealPlanContext.tsx:53-59 | afterwards `getMealPlanByDate` finds a plan on that day: the new one if the day had none, else the plan found before |
| MealPlans.UpdateMealPlan | src/context/MealPlanContext.tsx:66-68 | length kept; only plans with the id change, by merging the patch |
| MealPlans.UpdateNoOp | src/context/MealPlanContext.tsx:66-68 | an unknown id or an empty patch leaves the plans unchanged |
| MealPlans.UpdateKeepsIdsUnique | src/context/MealPlanContext.tsx:66-68 | a patch that leaves the id alone keeps plan ids unique |
| MealPlans.DeleteMealPlan | src/context/MealPlanContext.tsx:76-77 | no plan with the id remains; the others kept in order, every copy kept |
| MealPlans.DeleteIdempotent | src/context/MealPlanContext.tsx:76-77 | deleting twice equals deleting once, and no lookup by date finds the deleted id |
| MealPlans.FindById | src/context/MealPlanContext.tsx:113 | none exactly when no plan has the id; otherwise the position of the first plan carrying it |
| MealPlans.ReplaceSlot | src/context/MealPlanContext.tsx:93-96 | exactly one meal of the type remains, the new one, placed last; other meals kept in order; one-meal-per-type is preserved |
| MealPlans.AddMealToDate | src/context/MealPlanContext.tsx:88-104 | a day without a plan gets one new plan holding just the meal; otherwise the day's first plan has its slot replaced and no plan is created |
| MealPlans.AddMealToDateFillsSlot | src/context/MealPlanContext.tsx:88-104 | afterwards the day's plan holds exactly one meal of the type, the new one, and its other meals are as before |
| MealPlans.AddMealToDateTwice | src/context/MealPlanContext.tsx:91-96 | assigning a slot twice leaves one entry holding the second recipe |
| MealPlans.AddMealToDateKeepsOtherDays | src/context/MealPlanContext.tsx:88-104 | no plan is dropped or moved and ids and dates are kept; with unique ids, the plans of other days are unchanged |
| MealPlans.AddMealToDateKeepsOnePerDay | src/context/MealPlanContext.tsx:88-104 | at most one plan per day is preserved |
| MealPlans.AddMealToDateKeepsOneMealPerType | src/context/MealPlanContext.tsx:88-104 | one meal per type in every plan is preserved |
| MealPlans.AddMealToDateKeepsIdsUnique | src/context/MealPlanContext.tsx:88-104 | unique plan ids are preserved |
| MealPlans.RemoveMealFromDate | src/context/MealPlanContext.tsx:112-124 | an unknown id changes nothing; otherwise the meals of the type go, and the plan is deleted when none remain; a plan that survives has meals left and none of the type |
| MealPlans.RemoveMealFromDateEffect | src/context/MealPlanContext.tsx:116-124 | a plan that survives has meals left and none of the removed type |
| MealPlans.RemoveLastMealDeletesPlan | src/context/MealPlanContext.tsx:116-121 | removing a plan's only meal type leaves its day without a plan |
| MealPlans.GetWeeklyMealPlans | src/context/MealPlanContext.tsx:132-140 | exactly the plans whose instant lies in [start, start + 6 days], as an ordered subsequence, each as often as stored |
| MealPlans.WeekDropsSeventhDayAfterMidnight | src/context/MealPlanContext.tsx:132-140 | with a midnight start, a plan later on the seventh day is excluded |
| MealPlans.GetWeeklyMealPlansByDay | src/context/MealPlanContext.tsx:132-140 | exactly the plans on the seven calendar days from the start's day, in order, each as often as stored |
| MealPlans.WeekByDayCoversWeek | src/context/MealPlanContext.tsx:132-140 | the by-day view ignores the start's time of day, and contains the instant-based view |
| RecipeDetail.HandleAddMissingToList | src/components/recipes/RecipeDetail.tsx:28-45 | the old list is a prefix; one unchecked `Other` item per missing line, in order, copying name, quantity and unit; the reported count is the number appended |
| RecipeDetail.AddedRowsFollowRecipe | src/components/recipes/RecipeDetail.tsx:28-40 | every required line the pantry lacks has an appended row |
| RecipeDetail.AddMissingKeepsIdsUnique | src/components/recipes/RecipeDetail.tsx:33-40 | the list keeps unique ids |
| RecipeDetail.HandleAddToMealPlan | src/components/recipes/RecipeDetail.tsx:48-51 | today's plan then holds the recipe as the only meal of the chosen type; a day without a plan gets one appended; no plan is dropped or moved and ids and dates are kept; with unique ids, the plans of other days are unchanged; one plan per day is preserved |
| RecipeDetail.IngredientTags | src/components/recipes/RecipeDetail.tsx:176-181 | "Missing" exactly when unavailable and required; "In Pantry" exactly when available; never both |
| RecipeDetail.MissingTagMatchesMissingList | src/components/recipes/RecipeDetail.tsx:28-31 | the Missing tag marks exactly the lines the button adds; an unavailable optional line has no tag |
| RecipeFilter.Toggle | src/components/recipes/RecipeList.tsx:42-56 | the value is present exactly when it was absent; other elements keep their membership; a new value goes last; removal keeps the rest in order and drops every copy of the value, and only those |
| RecipeFilter.ToggleTwice | src/components/recipes/RecipeList.tsx:42-56 | toggling a value twice restores every membership |
| RecipeFilter.FilterRecipes | src/components/recipes/RecipeList.tsx:58-75 | an ordered subsequence holding exactly the recipes that pass search, meal type and tags, each as often as given |
| RecipeFilter.NoCriteriaKeepsAll | src/components/recipes/RecipeList.tsx:58-75 | no term and nothing ticked returns the input |
| RecipeFilter.SearchIsCaseInsensitiveSubstring | src/components/recipes/RecipeList.tsx:60-62 | with a non-empty term, each kept title contains the term, both lower-cased |
| RecipeFilter.SearchIgnoresCase | src/components/recipes/RecipeList.tsx:60-62 | terms equal up to case select the same recipes |
| RecipeFilter.MealTypesAnyOf | src/components/recipes/RecipeList.tsx:65-67 | one ticked type the recipe has is enough, whatever else is ticked |
| RecipeFilter.MoreTagsShrink | src/components/recipes/RecipeList.tsx:70-72 | ticking more tags gives a subsequence of the earlier result |
| RecipeFilter.FilterPantryRecipes | src/components/recipes/RecipeList.tsx:147-162 | the recipes passing the three controls whose match reaches the slider, as the caption describes, in order and with every copy |
| RecipeFilter.SliderNarrowsList | src/components/recipes/RecipeList.tsx:147-162 | at 0% the slider-aware list is the filtered list, and at any position it is a subsequence of it |
| RecipeFilter.SliderFiltersNothing | src/components/recipes/RecipeList.tsx:58-75 | as written, a recipe with no line in the pantry stays listed at any positive slider value; the slider-aware list drops it |
| RecipeForm.AddIngredientRow | src/components/recipes/RecipeForm.tsx:39-41 | one blank row appended; nothing else changes |
| RecipeForm.AddStep | src/components/recipes/RecipeForm.tsx:53-55 | one empty step appended; nothing else changes |
| RecipeForm.RemoveAt | src/components/recipes/RecipeForm.tsx:43-45 | exactly index i is dropped and later elements shift down; an out-of-range index removes nothing |
| RecipeForm.AddThenRemoveRow | src/components/recipes/RecipeForm.tsx:39-59 | removing the row or step just added restores the form |
| RecipeForm.ChangeIngredient | src/components/recipes/RecipeForm.tsx:47-51 | only the edited field of row i changes |
| RecipeForm.ChangeStep | src/components/recipes/RecipeForm.tsx:61-65 | only step i changes |
| RecipeForm.EditNameRoundTrip | src/components/recipes/RecipeForm.tsx:47-51 | editing the name and then restoring it gives back the form |
| RecipeForm.ToggleMealType | src/components/recipes/RecipeForm.tsx:67-73 | flips membership of that meal type; every other type keeps its membership; a new type goes last; removal keeps the other types in order with all their copies |
| RecipeForm.ToggleDietaryTag | src/components/recipes/RecipeForm.tsx:75-81 | flips membership of that tag; every other tag keeps its membership; a new tag goes last; removal keeps the other tags in order with all their copies |
| RecipeForm.NumberOr | src/components/recipes/RecipeForm.tsx:112-114 | NaN and 0 give the fallback; any other number is kept |
| RecipeForm.LineIdsDistinct | src/components/recipes/RecipeForm.tsx:105-108 | the ids `new-<i>` of distinct positions differ |
| RecipeForm.Submit | src/components/recipes/RecipeForm.tsx:83-115 | refuses with no ingredient first, then with no step. Otherwise: kept rows are numbered `new-<i>` in order; non-blank steps are kept; mealType defaults to Dinner; times default to 0 and servings to 1; author is "You" and the image is the placeholder |
| RecipeForm.SubmittedRecipeWellFormed | src/components/recipes/RecipeForm.tsx:87-114 | a submitted recipe has ingredients and steps, none blank, distinct line ids, a meal type, and servings ≠ 0 |
| RecipeForm.SubmitKeepsFilledRows | src/components/recipes/RecipeForm.tsx:87-108 | every row with a non-blank name reaches the recipe with its fields |
| RecipeForm.InitialFormRefused | src/components/recipes/RecipeForm.tsx:29-93 | the untouched form is refused for want of ingredients |
| RecipeForm.SubmitToCatalog | src/components/recipes/RecipeForm.tsx:83-117 | a refusal leaves the catalog unchanged; success appends exactly the submitted recipe under the fresh id, found by lookup |
| RecipeCard.RoundPercent | src/components/recipes/RecipeCard.tsx:23 | the percentage is in 0..100 and within one half of 100·a/n, halves rounding up |
| RecipeCard.MatchPercentage | src/components/recipes/RecipeCard.tsx:17-23 | the rounded percentage of the catalog's match ratio: 0..100, and 0 without ingredients |
| RecipeCard.PercentageExtremes | src/components/recipes/RecipeCard.tsx:17-23 | a full match shows 100, no match shows 0 |
| RecipeCard.BandOf | src/components/recipes/RecipeCard.tsx:57-65 | green from 70, amber from 40 to 69, red below 40, one band each |
| RecipeCard.GreenAtDefaultThreshold | src/components/recipes/RecipeCard.tsx:23-57 | a ratio ≥ 0.7 shows green; green means 100·ratio ≥ 69.5 |
| RecipeCard.RankedRecipesShowGreen | src/components/recipes/RecipeCard.tsx:57 | everything the default ranking returns is shown green |
| RecipeCard.Card | src/components/recipes/RecipeCard.tsx:14-88 | links to `/recipe/<id>`; time shown is prep + cook; the match percentage and its band appear exactly when `showMatchedIngredients` is set, and then equal the rounded match ratio; at most 3 tags and 1 meal type, taken from the front of each list |
| RecipeCard.CardDependsOnAvailableCount | src/components/recipes/RecipeCard.tsx:17-23 | pantries with the same available count give the same card |
| RecipeCard.HiddenMatchIgnoresPantry | src/components/recipes/RecipeCard.tsx:14-53 | without `showMatchedIngredients` the card does not depend on the pantry |

## Left out

- Loading and saving each store in `localStorage`, and JSON (de)serialisation with its date revival. These are I/O, so the round trip through storage is not modelled.
- `crypto.randomUUID`: replaced by a caller-supplied fresh id with a freshness precondition.
- Toasts, `alert`, `navigate` and all JSX rendering, except the values the card and the detail page compute.
- The authentication context, pages, routing, the layout, the pantry and shopping-list components, and the signup form. They hold no logic beyond the stores.
- `MealPlanView.tsx`: its week arithmetic relies on date-fns, whose code is not part of this model.
- The Flask backend: its database, password hashing and tokens are foreign libraries.
- React state timing: each handler is modelled as a step from the state it reads. The `prev =>` updater form and stale-closure effects are not modelled.
- `Text.Lower`: folds ASCII letters only, where `toLowerCase` folds all of Unicode.
- `Text.Trim`: strips ASCII whitespace only, where `trim` also strips Unicode spaces and line terminators.
- `RecipeForm.Submit`: `parseInt` is a caller-supplied function from text to a number or NaN, because what it accepts is not the point of the form.
- `RecipeCard.RoundPercent`: computed in exact arithmetic. The program uses IEEE doubles, where `100 * ratio` can land just below a half and round down.
- `Recipes.MatchRatio`: an exact rational, where the program uses an IEEE double. Comparisons with the threshold are therefore exact.
- `MealPlans.GetMealPlanByDate` and `MealPlans.IsSameDay`: dates are abstract (day, time) pairs. Time zones, daylight-saving shifts and calendar arithmetic (`setDate` overflow into the next month) are not modelled; a day number stands for the calendar date.
- `RecipeForm.ChangeIngredient` and `RecipeForm.ChangeStep`: require an index inside the list, which is what the rendered rows pass. Writing past the end of a JavaScript array is not modelled.
- Recipe detail total time (RecipeDetail.tsx:53) is the same `prepTime + cookTime` as the card's and has no separate member.

## Findings

| source | as written | input that shows it | evidently intended | confidence | as-written member | corrected member |
|---|---|---|---|---|---|---|
| src/context/MealPlanContext.tsx:132-140 | the week is the closed interval of instants from `startDate` to six days later at the same time of day | start at 00:00 on day d, and a plan at 18:00 on day d+6: the plan is excluded although its day is in the week | every plan on the seven calendar days beginning with the start's day, matching the calendar-day comparison used by `getMealPlanByDate` | low; not executed; no component or page calls the function | MealPlans.WeekDropsSeventhDayAfterMidnight | MealPlans.GetWeeklyMealPlansByDay |
| src/components/recipes/RecipeList.tsx:58-75 | the list filters on search, meal types and tags only; the `matchThreshold` slider (line 40), shown on the pantry page at lines 147-162, is never read | the pantry page (src/pages/PantryRecipes.tsx:18-22) passes `getMatchingRecipes(0)`, which lists every recipe, because threshold 0 admits all of them; with the slider at its initial 70%, a recipe with none of its lines in the pantry is still listed under the caption "Show recipes where you have at least 70% of the ingredients" | only recipes whose match reaches the slider value are listed, as the caption says | medium; not executed | RecipeFilter.SliderFiltersNothing | RecipeFilter.FilterPantryRecipes |

=== FILE: catalog.dfy ===
/** The recipe catalog and matching engine (`src/context/RecipeContext.tsx`):
    a read-only built-in pool, the user's own pool, lookup by id, the pantry
    match ratio, the ranking of recipes by that ratio, and the list of
    required ingredients the pantry lacks. */
module Recipes {
  import opened Types
  import opened Seqs
  import Text
  import Pantry

  /** The two recipe pools. Lookups and ranking see `builtIns + userRecipes`. */
  datatype Catalog = Catalog(builtIns: seq<Recipe>, userRecipes: seq<Recipe>) {
    function All(): seq<Recipe> {
      builtIns + userRecipes
    }
  }

  /** `Partial<Recipe>`: `None` leaves a field as it is. */
  datatype RecipePatch = RecipePatch(
    id: Option<string>,
    title: Option<string>,
    author: Option<string>,
    description: Option<string>,
    imageUrl: Option<string>,
    ingredients: Option<seq<RecipeIngredient>>,
    steps: Option<seq<string>>,
    dietaryTags: Option<seq<string>>,
    mealType: Option<seq<MealType>>,
    prepTime: Option<int>,
    cookTime: Option<int>,
    servings: Option<int>)

  /** The object spread `{ ...recipe, ...updates }`. */
  function ApplyPatch(r: Recipe, patch: RecipePatch): Recipe {
    Recipe(
      patch.id.GetOr(r.id),
      patch.title.GetOr(r.title),
      patch.author.GetOr(r.author),
      patch.description.GetOr(r.description),
      patch.imageUrl.GetOr(r.imageUrl),
      patch.ingredients.GetOr(r.ingredients),
      patch.steps.GetOr(r.steps),
      patch.dietaryTags.GetOr(r.dietaryTags),
      patch.mealType.GetOr(r.mealType),
      patch.prepTime.GetOr(r.prepTime),
      patch.cookTime.GetOr(r.cookTime),
      patch.servings.GetOr(r.servings))
  }

  /** No recipe of `rs` carries `id`. */
  predicate Fresh(rs: seq<Recipe>, id: string) {
    forall i :: 0 <= i < |rs| ==> rs[i].id != id
  }

  // ---------------------------------------------------------------- lookup

  /** `Array.prototype.find` by id: the first recipe carrying `id`. */
  function FindById(rs: seq<Recipe>, id: string): (r: Option<Recipe>)
    ensures r.None? <==> Fresh(rs, id)
    ensures r.Some? ==> r.value.id == id &&
                        exists i :: 0 <= i < |rs| && rs[i] == r.value && Fresh(rs[..i], id)
  {
    if |rs| == 0 then None
    else if rs[0].id == id then
      assert rs[..0] == [];
      Some(rs[0])
    else
      var r := FindById(rs[1..], id);
      if r.Some? then
        var i :| 0 <= i < |rs[1..]| && rs[1..][i] == r.value && Fresh(rs[1..][..i], id);
        assert rs[..i + 1] == [rs[0]] + rs[1..][..i];
        r
      else
        assert forall i :: 1 <= i < |rs| ==> rs[i] == rs[1..][i - 1];
        r
  }

  lemma FreshConcat(a: seq<Recipe>, b: seq<Recipe>, id: string)
    ensures Fresh(a + b, id) <==> Fresh(a, id) && Fresh(b, id)
  {
    if Fresh(a, id) && Fresh(b, id) {
      forall i | 0 <= i < |a + b|
        ensures (a + b)[i].id != id
      {
        if i >= |a| {
          assert (a + b)[i] == b[i - |a|];
        }
      }
    }
    if Fresh(a + b, id) {
      forall i | 0 <= i < |a|
        ensures a[i].id != id
      {
        assert (a + b)[i] == a[i];
      }
      forall i | 0 <= i < |b|
        ensures b[i].id != id
      {
        assert (a + b)[|a| + i] == b[i];
      }
    }
  }

  /** Searching a concatenation searches the first part, then the second. */
  lemma {:induction false} FindByIdConcat(a: seq<Recipe>, b: seq<Recipe>, id: string)
    ensures FindById(a + b, id) == if FindById(a, id).Some? then FindById(a, id) else FindById(b, id)
  {
    if |a| == 0 {
      assert a + b == b;
    } else {
      assert (a + b)[1..] == a[1..] + b;
      FindByIdConcat(a[1..], b, id);
    }
  }

  /** `getRecipeById`: the first match in `builtIns + userRecipes`, so a
      built-in recipe wins over a user recipe with the same id. */
  function GetRecipeById(cat: Catalog, id: string): (r: Option<Recipe>)
    ensures r.None? <==> Fresh(cat.builtIns, id) && Fresh(cat.userRecipes, id)
    ensures r.Some? ==> r.value.id == id && r.value in cat.All()
    ensures !Fresh(cat.builtIns, id) ==> r == FindById(cat.builtIns, id)
    ensures Fresh(cat.builtIns, id) ==> r == FindById(cat.userRecipes, id)
  {
    FindByIdConcat(cat.builtIns, cat.userRecipes, id);
    FindById(cat.All(), id)
  }

  // ---------------------------------------------------------------- matching

  function Available(pantry: seq<Ingredient>): RecipeIngredient -> bool {
    (ing: RecipeIngredient) => Pantry.HasIngredient(pantry, ing.name)
  }

  /** How many of the ingredient lines the pantry has, optional ones included. */
  function AvailableCount(pantry: seq<Ingredient>, ings: seq<RecipeIngredient>): (n: nat)
    ensures n <= |ings|
    ensures n == |set i: nat | i < |ings| && Pantry.HasIngredient(pantry, ings[i].name)|
  {
    CountPositions(ings, Available(pantry));
    assert Positions(ings, Available(pantry)) == set i: nat | i < |ings| && Pantry.HasIngredient(pantry, ings[i].name);
    Count(ings, Available(pantry))
  }

  /** The pantry match ratio: available lines over all lines, or 0 for a
      recipe without ingredients. */
  function MatchRatio(pantry: seq<Ingredient>, recipe: Recipe): (r: real)
    ensures 0.0 <= r <= 1.0
    ensures |recipe.ingredients| == 0 ==> r == 0.0
    ensures r == 1.0 <==> (|recipe.ingredients| > 0 && AllAvailable(pantry, recipe.ingredients))
    ensures r == 0.0 <==> NoneAvailable(pantry, recipe.ingredients)
    ensures |recipe.ingredients| > 0 ==>
      r == AvailableCount(pantry, recipe.ingredients) as real / |recipe.ingredients| as real
  {
    var ings := recipe.ingredients;
    var available := AvailableCount(pantry, ings);
    CountExtremes(pantry, ings);
    if |ings| == 0 then 0.0
    else
      var q := Fraction(available, |ings|);
      q
  }

  /** `a / n` for `0 <= a <= n`, `n > 0`. */
  function Fraction(a: nat, n: nat): (q: real)
    requires 0 < n && a <= n
    ensures 0.0 <= q <= 1.0
    ensures q == 1.0 <==> a == n
    ensures q == 0.0 <==> a == 0
    ensures q == a as real / n as real
  {
    FractionBounds(a, n);
    a as real / n as real
  }

  predicate AllAvailable(pantry: seq<Ingredient>, ings: seq<RecipeIngredient>) {
    forall i :: 0 <= i < |ings| ==> Pantry.HasIngredient(pantry, ings[i].name)
  }

  predicate NoneAvailable(pantry: seq<Ingredient>, ings: seq<RecipeIngredient>) {
    forall i :: 0 <= i < |ings| ==> !Pantry.HasIngredient(pantry, ings[i].name)
  }

  lemma CountExtremes(pantry: seq<Ingredient>, ings: seq<RecipeIngredient>)
    ensures AvailableCount(pantry, ings) == |ings| <==> AllAvailable(pantry, ings)
    ensures AvailableCount(pantry, ings) == 0 <==> NoneAvailable(pantry, ings)
  {
    FilterFullLength(ings, Available(pantry));
    FilterEmpty(ings, Available(pantry));
  }

  lemma FractionBounds(a: nat, n: nat)
    requires 0 < n && a <= n
    ensures 0.0 <= a as real / n as real <= 1.0
    ensures a as real / n as real == 1.0 <==> a == n
    ensures a as real / n as real == 0.0 <==> a == 0
    ensures (a as real / n as real) * n as real == a as real
  {
    var q := a as real / n as real;
    assert q * n as real == a as real;
  }

  function IsMissing(pantry: seq<Ingredient>): RecipeIngredient -> bool {
    (ing: RecipeIngredient) => !Pantry.HasIngredient(pantry, ing.name) && !ing.optional
  }

  /** The required ingredient lines the pantry lacks, in recipe order. */
  function MissingOf(pantry: seq<Ingredient>, recipe: Recipe): (r: seq<RecipeIngredient>)
    ensures IsSubsequence(r, recipe.ingredients)
    ensures forall i :: 0 <= i < |r| ==> !r[i].optional && !Pantry.HasIngredient(pantry, r[i].name)
    ensures forall i :: 0 <= i < |recipe.ingredients| ==>
      (!recipe.ingredients[i].optional && !Pantry.HasIngredient(pantry, recipe.ingredients[i].name)
       ==> recipe.ingredients[i] in r)
    ensures forall x :: multiset(r)[x] == (if !x.optional && !Pantry.HasIngredient(pantry, x.name)
                                           then multiset(recipe.ingredients)[x] else 0)
  {
    FilterMultiplicity(recipe.ingredients, IsMissing(pantry));
    Filter(recipe.ingredients, IsMissing(pantry))
  }

  /** `getMissingIngredients`: nothing for an unknown id; otherwise the
      missing required lines of the recipe the lookup finds. */
  function GetMissingIngredients(cat: Catalog, pantry: seq<Ingredient>, id: string): (r: seq<RecipeIngredient>)
    ensures GetRecipeById(cat, id).None? ==> r == []
    ensures GetRecipeById(cat, id).Some? ==>
      IsSubsequence(r, GetRecipeById(cat, id).value.ingredients)
    ensures forall i :: 0 <= i < |r| ==> !r[i].optional && !Pantry.HasIngredient(pantry, r[i].name)
    ensures GetRecipeById(cat, id).Some? ==> r == MissingOf(pantry, GetRecipeById(cat, id).value)
    ensures GetRecipeById(cat, id).Some? ==>
      var ings := GetRecipeById(cat, id).value.ingredients;
      forall i :: 0 <= i < |ings| && !ings[i].optional && !Pantry.HasIngredient(pantry, ings[i].name) ==> ings[i] in r
  {
    match GetRecipeById(cat, id)
    case None => []
    case Some(recipe) => MissingOf(pantry, recipe)
  }

  /** Optional lines count on both sides of the ratio: the ratio depends on
      the ingredient names only, never on the `optional` flags. */
  lemma {:induction false} RatioIgnoresOptional(pantry: seq<Ingredient>, a: Recipe, b: Recipe)
    requires |a.ingredients| == |b.ingredients|
    requires forall i :: 0 <= i < |a.ingredients| ==> a.ingredients[i].name == b.ingredients[i].name
    ensures MatchRatio(pantry, a) == MatchRatio(pantry, b)
  {
    SameNamesSameCount(pantry, a.ingredients, b.ingredients);
  }

  lemma {:induction false} SameNamesSameCount(pantry: seq<Ingredient>, a: seq<RecipeIngredient>, b: seq<RecipeIngredient>)
    requires |a| == |b|
    requires forall i :: 0 <= i < |a| ==> a[i].name == b[i].name
    ensures AvailableCount(pantry, a) == AvailableCount(pantry, b)
  {
    if |a| > 0 {
      SameNamesSameCount(pantry, a[1..], b[1..]);
    }
  }

  /** A line is never both available and missing, so the missing lines are
      at most the lines the ratio counts as unavailable. */
  lemma MissingAtMostUnavailable(pantry: seq<Ingredient>, recipe: Recipe)
    ensures |MissingOf(pantry, recipe)| + AvailableCount(pantry, recipe.ingredients) <= |recipe.ingredients|
  {
    MissingAndAvailableDisjoint(pantry, recipe.ingredients);
  }

  lemma {:induction false} MissingAndAvailableDisjoint(pantry: seq<Ingredient>, ings: seq<RecipeIngredient>)
    ensures |Filter(ings, IsMissing(pantry))| + AvailableCount(pantry, ings) <= |ings|
  {
    if |ings| > 0 {
      MissingAndAvailableDisjoint(pantry, ings[1..]);
      FilterCons(ings[0], ings[1..], IsMissing(pantry));
      FilterCons(ings[0], ings[1..], Available(pantry));
      assert [ings[0]] + ings[1..] == ings;
    }
  }

  /** A full match leaves nothing to buy. */
  lemma FullMatchNothingMissing(pantry: seq<Ingredient>, recipe: Recipe)
    requires MatchRatio(pantry, recipe) == 1.0
    ensures MissingOf(pantry, recipe) == []
  {
    FilterEmpty(recipe.ingredients, IsMissing(pantry));
  }

  /** The matching scenario: a pantry holding Egg and Milk, and a recipe
      needing Egg, Milk and Flour, match two lines of three, and Flour is
      the one line to buy. */
  lemma MatchScenario(recipe: Recipe, egg: Ingredient, milk: Ingredient)
    requires egg.name == "Egg" && milk.name == "Milk"
    requires |recipe.ingredients| == 3
    requires recipe.ingredients[0].name == "Egg" && recipe.ingredients[1].name == "Milk"
    requires recipe.ingredients[2].name == "Flour"
    requires forall i :: 0 <= i < 3 ==> !recipe.ingredients[i].optional
    ensures MatchRatio([egg, milk], recipe) == 2.0 / 3.0
    ensures MissingOf([egg, milk], recipe) == [recipe.ingredients[2]]
  {
    var pantry, ings := [egg, milk], recipe.ingredients;
    assert Pantry.HasIngredient(pantry, "Egg") by {
      assert Text.EqualsIgnoreCase(pantry[0].name, "Egg");
    }
    assert Pantry.HasIngredient(pantry, "Milk") by {
      assert Text.EqualsIgnoreCase(pantry[1].name, "Milk");
    }
    assert !Pantry.HasIngredient(pantry, "Flour") by {
      assert |Text.Lower("Egg")| != |Text.Lower("Flour")| && |Text.Lower("Milk")| != |Text.Lower("Flour")|;
    }
    assert ings == [ings[0]] + [ings[1]] + [ings[2]];
    FilterConcat([ings[0]] + [ings[1]], [ings[2]], Available(pantry));
    FilterConcat([ings[0]], [ings[1]], Available(pantry));
    FilterConcat([ings[0]] + [ings[1]], [ings[2]], IsMissing(pantry));
    FilterConcat([ings[0]], [ings[1]], IsMissing(pantry));
    assert AvailableCount(pantry, ings) == 2;
  }

  // ---------------------------------------------------------------- ranking

  /** A recipe together with its match ratio, as `getMatchingRecipes` returns it. */
  datatype Ranked = Ranked(recipe: Recipe, matchRatio: real)

  /** The default threshold of `getMatchingRecipes`. */
  const DefaultThreshold: real := 0.7

  /** `allRecipes.map(...)`: each recipe paired with its ratio. */
  function Score(pantry: seq<Ingredient>, rs: seq<Recipe>): (r: seq<Ranked>)
    ensures |r| == |rs|
    ensures forall i :: 0 <= i < |r| ==> r[i].recipe == rs[i] && r[i].matchRatio == MatchRatio(pantry, rs[i])
  {
    seq(|rs|, i requires 0 <= i < |rs| => Ranked(rs[i], MatchRatio(pantry, rs[i])))
  }

  predicate SortedByRatio(s: seq<Ranked>) {
    forall i, j :: 0 <= i < j < |s| ==> s[i].matchRatio >= s[j].matchRatio
  }

  /** Inserts `x` before the first element whose ratio is not above its own,
      so `x` stays ahead of the equal-ratio elements that followed it. */
  function Insert(x: Ranked, s: seq<Ranked>): (r: seq<Ranked>)
    requires SortedByRatio(s)
    ensures SortedByRatio(r)
    ensures multiset(r) == multiset(s) + multiset{x}
  {
    if |s| == 0 || x.matchRatio >= s[0].matchRatio then
      ConsSorted(x, s);
      [x] + s
    else
      var rest := Insert(x, s[1..]);
      assert s == [s[0]] + s[1..];
      TailBelowHead(x, s, rest);
      ConsSorted(s[0], rest);
      [s[0]] + rest
  }

  /** What `Insert` puts behind the head of `s` is no higher than that head. */
  lemma TailBelowHead(x: Ranked, s: seq<Ranked>, rest: seq<Ranked>)
    requires SortedByRatio(s) && |s| > 0 && x.matchRatio < s[0].matchRatio
    requires multiset(rest) == multiset(s[1..]) + multiset{x}
    ensures forall j :: 0 <= j < |rest| ==> rest[j].matchRatio <= s[0].matchRatio
  {
    forall j | 0 <= j < |rest|
      ensures rest[j].matchRatio <= s[0].matchRatio
    {
      assert rest[j] in multiset(rest);
      if rest[j] != x {
        assert rest[j] in multiset(s[1..]);
        var k :| 0 <= k < |s[1..]| && s[1..][k] == rest[j];
        assert s[k + 1] == rest[j];
      }
    }
  }

  /** A head no lower than every element of a sorted tail keeps the order. */
  lemma ConsSorted(h: Ranked, s: seq<Ranked>)
    requires SortedByRatio(s)
    requires |s| == 0 || s[0].matchRatio <= h.matchRatio || forall j :: 0 <= j < |s| ==> s[j].matchRatio <= h.matchRatio
    ensures SortedByRatio([h] + s)
  {
    var r := [h] + s;
    forall i, j | 0 <= i < j < |r|
      ensures r[i].matchRatio >= r[j].matchRatio
    {
      if i == 0 {
        assert r[j] == s[j - 1];
        if |s| > 0 && s[0].matchRatio <= h.matchRatio {
          assert s[0].matchRatio >= s[j - 1].matchRatio;
        }
      } else {
        assert r[i] == s[i - 1] && r[j] == s[j - 1];
      }
    }
  }

  /** The stable sort by non-increasing ratio (`sort((a, b) => b.matchRatio - a.matchRatio)`). */
  function SortByRatio(s: seq<Ranked>): (r: seq<Ranked>)
    ensures SortedByRatio(r)
    ensures multiset(r) == multiset(s)
  {
    if |s| == 0 then []
    else
      assert s == [s[0]] + s[1..];
      Insert(s[0], SortByRatio(s[1..]))
  }

  function RatioIs(v: real): Ranked -> bool {
    (e: Ranked) => e.matchRatio == v
  }

  function AtLeast(t: real): Ranked -> bool {
    (e: Ranked) => e.matchRatio >= t
  }

  lemma {:induction false} InsertStable(x: Ranked, s: seq<Ranked>, v: real)
    requires SortedByRatio(s)
    ensures Filter(Insert(x, s), RatioIs(v)) == Filter([x] + s, RatioIs(v))
  {
    if |s| > 0 && x.matchRatio < s[0].matchRatio {
      InsertStable(x, s[1..], v);
      FilterCons(s[0], Insert(x, s[1..]), RatioIs(v));
      FilterCons(x, s[1..], RatioIs(v));
      FilterCons(x, s, RatioIs(v));
      FilterCons(s[0], s[1..], RatioIs(v));
      assert [s[0]] + s[1..] == s;
    }
  }

  /** Stability: among the elements of any one ratio, the sort keeps their
      original relative order. */
  lemma {:induction false} SortStable(s: seq<Ranked>, v: real)
    ensures Filter(SortByRatio(s), RatioIs(v)) == Filter(s, RatioIs(v))
  {
    if |s| > 0 {
      SortStable(s[1..], v);
      InsertStable(s[0], SortByRatio(s[1..]), v);
      FilterCons(s[0], SortByRatio(s[1..]), RatioIs(v));
      FilterCons(s[0], s[1..], RatioIs(v));
      assert [s[0]] + s[1..] == s;
    }
  }

  /** Keeps the scored recipes whose ratio reaches `t`, best first. */
  function Rank(scored: seq<Ranked>, t: real): (r: seq<Ranked>)
    ensures SortedByRatio(r)
    ensures forall i :: 0 <= i < |r| ==> r[i].matchRatio >= t
    ensures multiset(r) == multiset(Filter(scored, AtLeast(t)))
  {
    var kept := Filter(scored, AtLeast(t));
    var r := SortByRatio(kept);
    assert forall i :: 0 <= i < |r| ==> r[i] in multiset(kept);
    r
  }

  /** Within one ratio `v` at or above the threshold, ranking keeps input
      order; no element of a ratio below the threshold survives. */
  lemma RankStable(scored: seq<Ranked>, t: real, v: real)
    ensures Filter(Rank(scored, t), RatioIs(v)) == if v >= t then Filter(scored, RatioIs(v)) else []
  {
    var kept := Filter(scored, AtLeast(t));
    SortStable(kept, v);
    if v >= t {
      FilterNested(scored, AtLeast(t), RatioIs(v));
    } else {
      FilterEmpty(kept, RatioIs(v));
    }
  }

  /** `getMatchingRecipes(threshold = 0.7)` over `builtIns + userRecipes`. */
  function GetMatchingRecipes(cat: Catalog, pantry: seq<Ingredient>, threshold: Option<real>): (r: seq<Ranked>)
    ensures SortedByRatio(r)
    ensures forall i :: 0 <= i < |r| ==>
      r[i].recipe in cat.All() && r[i].matchRatio == MatchRatio(pantry, r[i].recipe) &&
      r[i].matchRatio >= threshold.GetOr(DefaultThreshold)
    ensures forall rec :: rec in cat.All() && MatchRatio(pantry, rec) >= threshold.GetOr(DefaultThreshold) ==>
      Ranked(rec, MatchRatio(pantry, rec)) in r
    ensures multiset(r) == multiset(Filter(Score(pantry, cat.All()), AtLeast(threshold.GetOr(DefaultThreshold))))
  {
    var t := threshold.GetOr(DefaultThreshold);
    var r := Rank(Score(pantry, cat.All()), t);
    RankScoredContents(pantry, cat.All(), t);
    r
  }

  lemma RankScoredContents(pantry: seq<Ingredient>, all: seq<Recipe>, t: real)
    ensures forall i :: 0 <= i < |Rank(Score(pantry, all), t)| ==>
      Rank(Score(pantry, all), t)[i].recipe in all &&
      Rank(Score(pantry, all), t)[i].matchRatio == MatchRatio(pantry, Rank(Score(pantry, all), t)[i].recipe)
    ensures forall rec :: rec in all && MatchRatio(pantry, rec) >= t ==>
      Ranked(rec, MatchRatio(pantry, rec)) in Rank(Score(pantry, all), t)
  {
    var scored := Score(pantry, all);
    var kept := Filter(scored, AtLeast(t));
    var r := Rank(scored, t);
    forall i | 0 <= i < |r|
      ensures r[i].recipe in all && r[i].matchRatio == MatchRatio(pantry, r[i].recipe)
    {
      assert r[i] in multiset(kept);
      assert r[i] in kept;
      var k :| 0 <= k < |scored| && scored[k] == r[i];
    }
    forall rec | rec in all && MatchRatio(pantry, rec) >= t
      ensures Ranked(rec, MatchRatio(pantry, rec)) in r
    {
      var k :| 0 <= k < |all| && all[k] == rec;
      assert scored[k] == Ranked(rec, MatchRatio(pantry, rec));
      assert scored[k] in kept;
      assert scored[k] in multiset(r);
    }
  }

  /** The ranking of the whole catalog is stable: recipes with the same ratio
      appear in their `builtIns + userRecipes` order. */
  lemma GetMatchingRecipesStable(cat: Catalog, pantry: seq<Ingredient>, threshold: Option<real>, v: real)
    requires v >= threshold.GetOr(DefaultThreshold)
    ensures Filter(GetMatchingRecipes(cat, pantry, threshold), RatioIs(v)) == Filter(Score(pantry, cat.All()), RatioIs(v))
  {
    RankStable(Score(pantry, cat.All()), threshold.GetOr(DefaultThreshold), v);
  }

  /** A recipe without ingredients passes no positive threshold. */
  lemma EmptyRecipeNeverRanked(cat: Catalog, pantry: seq<Ingredient>, threshold: Option<real>, rec: Recipe)
    requires threshold.GetOr(DefaultThreshold) > 0.0 && |rec.ingredients| == 0
    ensures forall i :: 0 <= i < |GetMatchingRecipes(cat, pantry, threshold)| ==>
      GetMatchingRecipes(cat, pantry, threshold)[i].recipe != rec
  {
  }

  /** The ranking scenario: ratios 1.0, 0.5 and 0.8 at threshold 0.7 give
      the first and the third, in that order. */
  lemma RankScenario(a: Recipe, b: Recipe, c: Recipe)
    ensures Rank([Ranked(a, 1.0), Ranked(b, 0.5), Ranked(c, 0.8)], 0.7) == [Ranked(a, 1.0), Ranked(c, 0.8)]
  {
    var x, y, z := Ranked(a, 1.0), Ranked(b, 0.5), Ranked(c, 0.8);
    ScenarioFilter(x, y, z);
    ScenarioSort(x, z);
  }

  lemma ScenarioFilter(x: Ranked, y: Ranked, z: Ranked)
    requires x.matchRatio == 1.0 && y.matchRatio == 0.5 && z.matchRatio == 0.8
    ensures Filter([x, y, z], AtLeast(0.7)) == [x, z]
  {
    FilterCons(x, [y, z], AtLeast(0.7));
    FilterCons(y, [z], AtLeast(0.7));
    FilterCons(z, [], AtLeast(0.7));
    assert [x, y, z] == [x] + [y, z] && [y, z] == [y] + [z] && [z] == [z] + [];
  }

  lemma ScenarioSort(x: Ranked, z: Ranked)
    requires x.matchRatio == 1.0 && z.matchRatio == 0.8
    ensures SortByRatio([x, z]) == [x, z]
  {
    assert [x, z][1..] == [z] && [z][1..] == [];
    assert SortByRatio([z]) == [z];
  }

  // ---------------------------------------------------------------- mutations

  /** `addRecipe`: appends the recipe to the user pool under a fresh id. */
  function AddRecipe(cat: Catalog, draft: Recipe, freshId: string): (r: Catalog)
    requires Fresh(cat.All(), freshId)
    ensures r.builtIns == cat.builtIns
    ensures r.userRecipes == cat.userRecipes + [draft.(id := freshId)]
    ensures GetRecipeById(r, freshId) == Some(draft.(id := freshId))
  {
    var r := Catalog(cat.builtIns, cat.userRecipes + [draft.(id := freshId)]);
    FindByIdConcat(cat.userRecipes, [draft.(id := freshId)], freshId);
    FreshConcat(cat.builtIns, cat.userRecipes, freshId);
    r
  }

  /** `updateRecipe`: patches the user recipes carrying `id`; built-ins are never touched. */
  function UpdateRecipe(cat: Catalog, id: string, patch: RecipePatch): (r: Catalog)
    ensures r.builtIns == cat.builtIns
    ensures |r.userRecipes| == |cat.userRecipes|
    ensures forall i :: 0 <= i < |cat.userRecipes| ==>
      r.userRecipes[i] == if cat.userRecipes[i].id == id then ApplyPatch(cat.userRecipes[i], patch) else cat.userRecipes[i]
  {
    Catalog(cat.builtIns, MapWhere(cat.userRecipes, HasId(id), Patcher(patch)))
  }

  function HasId(id: string): Recipe -> bool {
    (rec: Recipe) => rec.id == id
  }

  function Patcher(patch: RecipePatch): Recipe -> Recipe {
    (rec: Recipe) => ApplyPatch(rec, patch)
  }

  function NotId(id: string): Recipe -> bool {
    (rec: Recipe) => rec.id != id
  }

  /** `deleteRecipe`: drops the user recipes carrying `id`; built-ins are never touched. */
  function DeleteRecipe(cat: Catalog, id: string): (r: Catalog)
    ensures r.builtIns == cat.builtIns
    ensures Fresh(r.userRecipes, id)
    ensures IsSubsequence(r.userRecipes, cat.userRecipes)
    ensures forall i :: 0 <= i < |cat.userRecipes| && cat.userRecipes[i].id != id ==> cat.userRecipes[i] in r.userRecipes
    ensures forall x :: multiset(r.userRecipes)[x] == if x.id == id then 0 else multiset(cat.userRecipes)[x]
  {
    FilterMultiplicity(cat.userRecipes, NotId(id));
    Catalog(cat.builtIns, Filter(cat.userRecipes, NotId(id)))
  }

  /** No user-pool mutation can change what a lookup of a built-in id returns,
      and after a delete a lookup finds only a built-in. */
  lemma BuiltInLookupStable(cat: Catalog, id: string, target: string, patch: RecipePatch)
    requires !Fresh(cat.builtIns, id)
    ensures GetRecipeById(UpdateRecipe(cat, target, patch), id) == GetRecipeById(cat, id)
    ensures GetRecipeById(DeleteRecipe(cat, target), id) == GetRecipeById(cat, id)
    ensures GetRecipeById(DeleteRecipe(cat, id), id).Some? ==> GetRecipeById(DeleteRecipe(cat, id), id).value in cat.builtIns
  {
  }
}

=== FILE: meal_plan.dfy ===
/** The meal-plan store (`src/context/MealPlanContext.tsx`): plans, each one
    date with an ordered list of (meal type, recipe id) slots. */
module MealPlans {
  import opened Types
  import opened Seqs

  /** `isSameDay`: same calendar day, whatever the time of day. */
  predicate IsSameDay(a: Instant, b: Instant) {
    a.day == b.day
  }

  /** `Partial<MealPlan>`: `None` leaves a field as it is. */
  datatype MealPlanPatch = MealPlanPatch(id: Option<string>, date: Option<Instant>, meals: Option<seq<Meal>>)

  function MealsPatch(meals: seq<Meal>): MealPlanPatch {
    MealPlanPatch(None, None, Some(meals))
  }

  /** The object spread `{ ...plan, ...updates }`. */
  function ApplyPatch(plan: MealPlan, patch: MealPlanPatch): MealPlan {
    MealPlan(patch.id.GetOr(plan.id), patch.date.GetOr(plan.date), patch.meals.GetOr(plan.meals))
  }

  /** No plan of `plans` carries `id`. */
  predicate Fresh(plans: seq<MealPlan>, id: string) {
    forall i :: 0 <= i < |plans| ==> plans[i].id != id
  }

  predicate UniqueIds(plans: seq<MealPlan>) {
    forall i, j :: 0 <= i < j < |plans| ==> plans[i].id != plans[j].id
  }

  /** The store's intended shape: no two plans on the same calendar day. */
  predicate AtMostOnePerDay(plans: seq<MealPlan>) {
    forall i, j :: 0 <= i < j < |plans| ==> !IsSameDay(plans[i].date, plans[j].date)
  }

  /** No two meals of a plan share a meal type. */
  predicate OneMealPerType(meals: seq<Meal>) {
    forall i, j :: 0 <= i < j < |meals| ==> meals[i].mealType != meals[j].mealType
  }

  predicate EveryPlanOneMealPerType(plans: seq<MealPlan>) {
    forall i :: 0 <= i < |plans| ==> OneMealPerType(plans[i].meals)
  }

  function NotType(t: MealType): Meal -> bool {
    (m: Meal) => m.mealType != t
  }

  function IsType(t: MealType): Meal -> bool {
    (m: Meal) => m.mealType == t
  }

  // ---------------------------------------------------------------- basic operations

  /** `addMealPlan`: appends a plan under a fresh id. */
  function AddMealPlan(plans: seq<MealPlan>, date: Instant, meals: seq<Meal>, freshId: string): (r: seq<MealPlan>)
    requires Fresh(plans, freshId)
    ensures |r| == |plans| + 1 && r[..|plans|] == plans
    ensures r[|plans|] == MealPlan(freshId, date, meals)
  {
    plans + [MealPlan(freshId, date, meals)]
  }

  /** A fresh id keeps plan ids unique. */
  lemma AddMealPlanKeepsIdsUnique(plans: seq<MealPlan>, date: Instant, meals: seq<Meal>, freshId: string)
    requires Fresh(plans, freshId) && UniqueIds(plans)
    ensures UniqueIds(AddMealPlan(plans, date, meals, freshId))
  {
  }

  /** After adding a plan, its day has a plan: the new one when the day had
      none, and otherwise the plan that was found there before. */
  lemma AddMealPlanThenLookup(plans: seq<MealPlan>, date: Instant, meals: seq<Meal>, freshId: string)
    requires Fresh(plans, freshId)
    ensures var found := GetMealPlanByDate(AddMealPlan(plans, date, meals, freshId), date);
            && found.Some?
            && found == (if GetMealPlanByDate(plans, date).Some? then GetMealPlanByDate(plans, date)
                         else Some(MealPlan(freshId, date, meals)))
  {
    var r := AddMealPlan(plans, date, meals, freshId);
    assert forall j :: 0 <= j < |plans| ==> r[j] == plans[j];
    match IndexOnDay(plans, date)
    case Some(i) =>
      assert IndexOnDay(r, date) == Some(i);
    case None =>
      assert IndexOnDay(r, date) == Some(|plans|);
  }

  /** `updateMealPlan`: merges the patch into the plans carrying `id`; every
      other plan, and the length, stay as they are. */
  function UpdateMealPlan(plans: seq<MealPlan>, id: string, patch: MealPlanPatch): (r: seq<MealPlan>)
    ensures |r| == |plans|
    ensures forall i :: 0 <= i < |plans| && plans[i].id == id ==> r[i] == ApplyPatch(plans[i], patch)
    ensures forall i :: 0 <= i < |plans| && plans[i].id != id ==> r[i] == plans[i]
  {
    MapWhere(plans, HasId(id), Patcher(patch))
  }

  function HasId(id: string): MealPlan -> bool {
    (p: MealPlan) => p.id == id
  }

  function Patcher(patch: MealPlanPatch): MealPlan -> MealPlan {
    (p: MealPlan) => ApplyPatch(p, patch)
  }

  const NoChanges := MealPlanPatch(None, None, None)

  /** An update for an id no plan carries, or with an empty patch, changes nothing. */
  lemma UpdateNoOp(plans: seq<MealPlan>, id: string, patch: MealPlanPatch)
    requires Fresh(plans, id) || patch == NoChanges
    ensures UpdateMealPlan(plans, id, patch) == plans
  {
  }

  /** A patch that leaves the id alone keeps plan ids unique. */
  lemma UpdateKeepsIdsUnique(plans: seq<MealPlan>, id: string, patch: MealPlanPatch)
    requires UniqueIds(plans) && (patch.id.None? || patch.id == Some(id))
    ensures UniqueIds(UpdateMealPlan(plans, id, patch))
  {
  }

  function NotId(id: string): MealPlan -> bool {
    (p: MealPlan) => p.id != id
  }

  /** `deleteMealPlan`: drops every plan with `id`, keeps the rest in order. */
  function DeleteMealPlan(plans: seq<MealPlan>, id: string): (r: seq<MealPlan>)
    ensures Fresh(r, id)
    ensures IsSubsequence(r, plans)
    ensures forall i :: 0 <= i < |plans| && plans[i].id != id ==> plans[i] in r
    ensures forall i :: 0 <= i < |r| ==> r[i] in plans
    ensures forall x :: multiset(r)[x] == if x.id == id then 0 else multiset(plans)[x]
  {
    FilterMultiplicity(plans, NotId(id));
    Filter(plans, NotId(id))
  }

  /** Deleting twice is deleting once, and no lookup by date finds the
      deleted id any more. */
  lemma DeleteIdempotent(plans: seq<MealPlan>, id: string, date: Instant)
    ensures DeleteMealPlan(DeleteMealPlan(plans, id), id) == DeleteMealPlan(plans, id)
    ensures var found := GetMealPlanByDate(DeleteMealPlan(plans, id), date);
            found.Some? ==> found.value.id != id
  {
    FilterIdempotent(plans, NotId(id));
  }

  // ---------------------------------------------------------------- lookup

  /** Position of the first plan on the calendar day of `date`. */
  function IndexOnDay(plans: seq<MealPlan>, date: Instant): (r: Option<nat>)
    ensures r.None? <==> forall i :: 0 <= i < |plans| ==> !IsSameDay(plans[i].date, date)
    ensures r.Some? ==> r.value < |plans| && IsSameDay(plans[r.value].date, date) &&
                        forall j :: 0 <= j < r.value ==> !IsSameDay(plans[j].date, date)
  {
    if |plans| == 0 then None
    else if IsSameDay(plans[0].date, date) then Some(0)
    else
      match IndexOnDay(plans[1..], date)
      case Some(i) =>
        assert forall j :: 1 <= j <= i ==> plans[j] == plans[1..][j - 1];
        Some(i + 1)
      case None =>
        assert forall j :: 1 <= j < |plans| ==> plans[j] == plans[1..][j - 1];
        None
  }

  /** `getMealPlanByDate`: the first plan on the same calendar day, if any. */
  function GetMealPlanByDate(plans: seq<MealPlan>, date: Instant): (r: Option<MealPlan>)
    ensures r.None? <==> forall i :: 0 <= i < |plans| ==> !IsSameDay(plans[i].date, date)
    ensures r.Some? ==> IsSameDay(r.value.date, date) &&
                        exists i :: 0 <= i < |plans| && plans[i] == r.value &&
                                    forall j :: 0 <= j < i ==> !IsSameDay(plans[j].date, date)
  {
    match IndexOnDay(plans, date)
    case Some(i) => Some(plans[i])
    case None => None
  }

  /** The first-plan-on-a-day position depends on the dates alone. */
  lemma IndexOnDayFollowsDates(a: seq<MealPlan>, b: seq<MealPlan>, date: Instant)
    requires |a| == |b| && forall i :: 0 <= i < |a| ==> a[i].date == b[i].date
    ensures IndexOnDay(a, date) == IndexOnDay(b, date)
  {
    var x, y := IndexOnDay(a, date), IndexOnDay(b, date);
    if x.Some? && y.Some? {
      assert !(x.value < y.value) && !(y.value < x.value);
    }
  }

  /** `getMealPlanByDate` ignores the time of day of its argument. */
  lemma LookupIgnoresTimeOfDay(plans: seq<MealPlan>, a: Instant, b: Instant)
    requires IsSameDay(a, b)
    ensures GetMealPlanByDate(plans, a) == GetMealPlanByDate(plans, b)
  {
    var x, y := IndexOnDay(plans, a), IndexOnDay(plans, b);
    if x.Some? && y.Some? {
      assert !(x.value < y.value) && !(y.value < x.value);
    }
  }

  /** The first plan carrying `id`. */
  function FindById(plans: seq<MealPlan>, id: string): (r: Option<nat>)
    ensures r.None? <==> Fresh(plans, id)
    ensures r.Some? ==> r.value < |plans| && plans[r.value].id == id
    ensures r.Some? ==> forall j :: 0 <= j < r.value ==> plans[j].id != id
  {
    if |plans| == 0 then None
    else if plans[0].id == id then Some(0)
    else
      match FindById(plans[1..], id)
      case Some(i) =>
        assert forall j :: 1 <= j <= i ==> plans[j] == plans[1..][j - 1];
        Some(i + 1)
      case None =>
        assert forall j :: 1 <= j < |plans| ==> plans[j] == plans[1..][j - 1];
        None
  }

  // ---------------------------------------------------------------- slot assignment

  /** The meal list after assigning `recipeId` to slot `t`: every meal of
      type `t` is removed and the new one goes last. */
  function ReplaceSlot(meals: seq<Meal>, t: MealType, recipeId: string): (r: seq<Meal>)
    ensures |r| > 0 && r[|r| - 1] == Meal(t, recipeId)
    ensures Filter(r, IsType(t)) == [Meal(t, recipeId)]
    ensures Filter(r, NotType(t)) == Filter(meals, NotType(t))
    ensures OneMealPerType(meals) ==> OneMealPerType(r)
  {
    var r := Filter(meals, NotType(t)) + [Meal(t, recipeId)];
    ReplaceSlotFilters(meals, t, recipeId);
    if OneMealPerType(meals) then
      ReplaceSlotKeepsOneMealPerType(meals, t, recipeId);
      r
    else
      r
  }

  lemma ReplaceSlotFilters(meals: seq<Meal>, t: MealType, recipeId: string)
    ensures var r := Filter(meals, NotType(t)) + [Meal(t, recipeId)];
            && Filter(r, IsType(t)) == [Meal(t, recipeId)]
            && Filter(r, NotType(t)) == Filter(meals, NotType(t))
  {
    var kept := Filter(meals, NotType(t));
    FilterConcat(kept, [Meal(t, recipeId)], IsType(t));
    FilterEmpty(kept, IsType(t));
    FilterCons(Meal(t, recipeId), [], IsType(t));
    FilterConcat(kept, [Meal(t, recipeId)], NotType(t));
    FilterCons(Meal(t, recipeId), [], NotType(t));
    FilterIdempotent(meals, NotType(t));
  }

  lemma ReplaceSlotKeepsOneMealPerType(meals: seq<Meal>, t: MealType, recipeId: string)
    requires OneMealPerType(meals)
    ensures OneMealPerType(Filter(meals, NotType(t)) + [Meal(t, recipeId)])
  {
    var kept := Filter(meals, NotType(t));
    FilterKeepsOneMealPerType(meals, NotType(t));
    var r := kept + [Meal(t, recipeId)];
    forall i, j | 0 <= i < j < |r|
      ensures r[i].mealType != r[j].mealType
    {
      if j < |kept| {
        assert r[i] == kept[i] && r[j] == kept[j];
      } else {
        assert r[i] == kept[i] && NotType(t)(kept[i]);
      }
    }
  }

  lemma {:induction false} FilterKeepsOneMealPerType(meals: seq<Meal>, p: Meal -> bool)
    requires OneMealPerType(meals)
    ensures OneMealPerType(Filter(meals, p))
  {
    if |meals| > 0 {
      var rest := Filter(meals[1..], p);
      FilterKeepsOneMealPerType(meals[1..], p);
      FilterCons(meals[0], meals[1..], p);
      assert meals == [meals[0]] + meals[1..];
      if p(meals[0]) {
        HeadTypeNotInFilteredTail(meals, p);
        ConsOneMealPerType(meals[0], rest);
      }
    }
  }

  lemma HeadTypeNotInFilteredTail(meals: seq<Meal>, p: Meal -> bool)
    requires OneMealPerType(meals) && |meals| > 0
    ensures forall j :: 0 <= j < |Filter(meals[1..], p)| ==> Filter(meals[1..], p)[j].mealType != meals[0].mealType
  {
    var rest := Filter(meals[1..], p);
    forall j | 0 <= j < |rest|
      ensures rest[j].mealType != meals[0].mealType
    {
      assert rest[j] in meals[1..];
      var k :| 0 <= k < |meals[1..]| && meals[1..][k] == rest[j];
      assert meals[k + 1] == rest[j];
    }
  }

  lemma ConsOneMealPerType(m: Meal, rest: seq<Meal>)
    requires OneMealPerType(rest)
    requires forall j :: 0 <= j < |rest| ==> rest[j].mealType != m.mealType
    ensures OneMealPerType([m] + rest)
  {
    var r := [m] + rest;
    forall i, j | 0 <= i < j < |r|
      ensures r[i].mealType != r[j].mealType
    {
      assert r[j] == rest[j - 1];
      if i > 0 {
        assert r[i] == rest[i - 1];
      }
    }
  }

  /** `addMealToDate`: on a day that has a plan, the first such plan gets its
      slot replaced and no plan is created; otherwise one new plan holding
      just this meal is appended. */
  function AddMealToDate(plans: seq<MealPlan>, date: Instant, t: MealType, recipeId: string, freshId: string): (r: seq<MealPlan>)
    requires Fresh(plans, freshId)
    ensures IndexOnDay(plans, date).None? ==>
      r == plans + [MealPlan(freshId, date, [Meal(t, recipeId)])]
    ensures IndexOnDay(plans, date).Some? ==>
      var p := plans[IndexOnDay(plans, date).value];
      && |r| == |plans|
      && (forall i :: 0 <= i < |plans| && plans[i].id != p.id ==> r[i] == plans[i])
      && (forall i :: 0 <= i < |plans| && plans[i].id == p.id ==>
            r[i] == plans[i].(meals := ReplaceSlot(p.meals, t, recipeId)))
  {
    match IndexOnDay(plans, date)
    case Some(i) =>
      var p := plans[i];
      UpdateMealPlan(plans, p.id, MealsPatch(ReplaceSlot(p.meals, t, recipeId)))
    case None =>
      AddMealPlan(plans, date, [Meal(t, recipeId)], freshId)
  }

  /** After `addMealToDate`, the day's plan holds exactly one meal of type
      `t`, the new one, and the day's other meals are those it had before,
      in order. */
  lemma AddMealToDateFillsSlot(plans: seq<MealPlan>, date: Instant, t: MealType, recipeId: string, freshId: string)
    requires Fresh(plans, freshId)
    ensures GetMealPlanByDate(AddMealToDate(plans, date, t, recipeId, freshId), date).Some?
    ensures var q := GetMealPlanByDate(AddMealToDate(plans, date, t, recipeId, freshId), date).value;
            var before := GetMealPlanByDate(plans, date);
            && Filter(q.meals, IsType(t)) == [Meal(t, recipeId)]
            && Filter(q.meals, NotType(t)) == (if before.Some? then Filter(before.value.meals, NotType(t)) else [])
  {
    var r := AddMealToDate(plans, date, t, recipeId, freshId);
    match IndexOnDay(plans, date)
    case Some(i) =>
      IndexOnDayFollowsDates(r, plans, date);
      assert r[i].meals == ReplaceSlot(plans[i].meals, t, recipeId);
    case None =>
      assert IndexOnDay(r, date) == Some(|plans|) by {
        assert forall j :: 0 <= j < |plans| ==> r[j] == plans[j];
      }
      assert Filter([Meal(t, recipeId)], NotType(t)) == [] by {
        FilterCons(Meal(t, recipeId), [], NotType(t));
      }
      assert Filter([Meal(t, recipeId)], IsType(t)) == [Meal(t, recipeId)] by {
        FilterCons(Meal(t, recipeId), [], IsType(t));
      }
  }

  /** Assigning the same slot twice leaves one entry, holding the second recipe. */
  lemma AddMealToDateTwice(plans: seq<MealPlan>, date: Instant, t: MealType, first: string, second: string,
                           id1: string, id2: string)
    requires Fresh(plans, id1)
    requires Fresh(AddMealToDate(plans, date, t, first, id1), id2)
    ensures var r := AddMealToDate(AddMealToDate(plans, date, t, first, id1), date, t, second, id2);
            && GetMealPlanByDate(r, date).Some?
            && Filter(GetMealPlanByDate(r, date).value.meals, IsType(t)) == [Meal(t, second)]
  {
    AddMealToDateFillsSlot(AddMealToDate(plans, date, t, first, id1), date, t, second, id2);
  }

  /** `addMealToDate` keeps every plan's id and date in place, and with unique
      ids it leaves the plans of every other day exactly as they were. */
  lemma AddMealToDateKeepsOtherDays(plans: seq<MealPlan>, date: Instant, t: MealType, recipeId: string, freshId: string)
    requires Fresh(plans, freshId)
    ensures var r := AddMealToDate(plans, date, t, recipeId, freshId);
            && |plans| <= |r|
            && (forall i :: 0 <= i < |plans| ==> r[i].id == plans[i].id && r[i].date == plans[i].date)
            && (UniqueIds(plans) ==>
                  forall i :: 0 <= i < |plans| && !IsSameDay(plans[i].date, date) ==> r[i] == plans[i])
  {
    var r := AddMealToDate(plans, date, t, recipeId, freshId);
    if IndexOnDay(plans, date).Some? && UniqueIds(plans) {
      var k := IndexOnDay(plans, date).value;
      forall i | 0 <= i < |plans| && !IsSameDay(plans[i].date, date)
        ensures r[i] == plans[i]
      {
        assert i != k;
      }
    }
  }

  /** `addMealToDate` never puts a second plan on a day. */
  lemma AddMealToDateKeepsOnePerDay(plans: seq<MealPlan>, date: Instant, t: MealType, recipeId: string, freshId: string)
    requires Fresh(plans, freshId) && AtMostOnePerDay(plans)
    ensures AtMostOnePerDay(AddMealToDate(plans, date, t, recipeId, freshId))
  {
  }

  /** `addMealToDate` never puts two meals of one type into a plan. */
  lemma AddMealToDateKeepsOneMealPerType(plans: seq<MealPlan>, date: Instant, t: MealType, recipeId: string, freshId: string)
    requires Fresh(plans, freshId) && EveryPlanOneMealPerType(plans)
    ensures EveryPlanOneMealPerType(AddMealToDate(plans, date, t, recipeId, freshId))
  {
    if IndexOnDay(plans, date).Some? {
      var p := plans[IndexOnDay(plans, date).value];
      assert OneMealPerType(p.meals);
    }
  }

  /** `addMealToDate` with a fresh id keeps plan ids unique. */
  lemma AddMealToDateKeepsIdsUnique(plans: seq<MealPlan>, date: Instant, t: MealType, recipeId: string, freshId: string)
    requires Fresh(plans, freshId) && UniqueIds(plans)
    ensures UniqueIds(AddMealToDate(plans, date, t, recipeId, freshId))
  {
  }

  // ---------------------------------------------------------------- slot removal

  /** `removeMealFromDate`: nothing for an unknown plan id; otherwise every
      meal of type `t` leaves the plan, and a plan left without meals is
      deleted. */
  function RemoveMealFromDate(plans: seq<MealPlan>, id: string, t: MealType): (r: seq<MealPlan>)
    ensures Fresh(plans, id) ==> r == plans
    ensures !Fresh(plans, id) ==>
      var kept := Filter(plans[FindById(plans, id).value].meals, NotType(t));
      && (kept == [] ==> r == DeleteMealPlan(plans, id))
      && (kept != [] ==> r == UpdateMealPlan(plans, id, MealsPatch(kept)))
    ensures !Fresh(plans, id) ==>
      forall i :: 0 <= i < |r| && r[i].id == id ==> r[i].meals != [] && Filter(r[i].meals, IsType(t)) == []
  {
    match FindById(plans, id)
    case None => plans
    case Some(i) =>
      var kept := Filter(plans[i].meals, NotType(t));
      FilterEmpty(kept, IsType(t));
      if |kept| == 0 then DeleteMealPlan(plans, id)
      else UpdateMealPlan(plans, id, MealsPatch(kept))
  }

  /** Removing a meal never leaves an empty plan behind: the plan either
      loses just the meals of type `t` or disappears. */
  lemma RemoveMealFromDateEffect(plans: seq<MealPlan>, id: string, t: MealType)
    requires !Fresh(plans, id)
    ensures var r := RemoveMealFromDate(plans, id, t);
            forall i :: 0 <= i < |r| && r[i].id == id ==>
              r[i].meals != [] && Filter(r[i].meals, IsType(t)) == []
  {
    var p := plans[FindById(plans, id).value];
    var kept := Filter(p.meals, NotType(t));
    FilterEmpty(kept, IsType(t));
  }

  /** Removing the last meal of a plan deletes it: afterwards its day has no
      plan, provided the day had only that one. */
  lemma RemoveLastMealDeletesPlan(plans: seq<MealPlan>, id: string, t: MealType)
    requires AtMostOnePerDay(plans) && !Fresh(plans, id)
    requires forall k :: 0 <= k < |plans[FindById(plans, id).value].meals| ==>
               plans[FindById(plans, id).value].meals[k].mealType == t
    ensures GetMealPlanByDate(RemoveMealFromDate(plans, id, t), plans[FindById(plans, id).value].date).None?
  {
    var i := FindById(plans, id).value;
    FilterEmpty(plans[i].meals, NotType(t));
    var r := RemoveMealFromDate(plans, id, t);
    assert r == DeleteMealPlan(plans, id);
    DeletedDaysElsewhere(plans, id, i);
  }

  lemma DeletedDaysElsewhere(plans: seq<MealPlan>, id: string, i: nat)
    requires AtMostOnePerDay(plans) && i < |plans| && plans[i].id == id
    ensures forall m :: 0 <= m < |DeleteMealPlan(plans, id)| ==> !IsSameDay(DeleteMealPlan(plans, id)[m].date, plans[i].date)
  {
    var r := DeleteMealPlan(plans, id);
    forall m | 0 <= m < |r|
      ensures !IsSameDay(r[m].date, plans[i].date)
    {
      assert r[m] in plans;
      var j :| 0 <= j < |plans| && plans[j] == r[m];
      assert plans[j].id != id;
    }
  }

  // ---------------------------------------------------------------- week view

  /** `endDate`: six days after `start`, at the same time of day. */
  function WeekEnd(start: Instant): Instant {
    Instant(start.day + 6, start.time)
  }

  function InWeek(start: Instant): MealPlan -> bool {
    (p: MealPlan) => AtOrBefore(start, p.date) && AtOrBefore(p.date, WeekEnd(start))
  }

  /** `getWeeklyMealPlans`: the plans whose instant lies between `start` and
      six days later, bounds included, in store order. */
  function GetWeeklyMealPlans(plans: seq<MealPlan>, start: Instant): (r: seq<MealPlan>)
    ensures IsSubsequence(r, plans)
    ensures forall i :: 0 <= i < |r| ==> AtOrBefore(start, r[i].date) && AtOrBefore(r[i].date, WeekEnd(start))
    ensures forall i :: 0 <= i < |plans| && AtOrBefore(start, plans[i].date) && AtOrBefore(plans[i].date, WeekEnd(start))
              ==> plans[i] in r
    ensures forall x :: multiset(r)[x] == if AtOrBefore(start, x.date) && AtOrBefore(x.date, WeekEnd(start))
                                         then multiset(plans)[x] else 0
  {
    FilterMultiplicity(plans, InWeek(start));
    Filter(plans, InWeek(start))
  }

  /** The range compares instants: with the week starting at midnight, a
      plan made later in the day on the seventh day is left out, although
      its calendar day is in the week. */
  lemma WeekDropsSeventhDayAfterMidnight(id: string, day: int, later: nat, meals: seq<Meal>)
    requires later > 0
    ensures GetWeeklyMealPlans([MealPlan(id, Instant(day + 6, later), meals)], Instant(day, 0)) == []
  {
  }

  function InWeekByDay(start: Instant): MealPlan -> bool {
    (p: MealPlan) => start.day <= p.date.day <= start.day + 6
  }

  /** The week view by calendar day: the plans on the seven days starting
      with `start`'s day, whatever their time of day. */
  function GetWeeklyMealPlansByDay(plans: seq<MealPlan>, start: Instant): (r: seq<MealPlan>)
    ensures IsSubsequence(r, plans)
    ensures forall i :: 0 <= i < |r| ==> start.day <= r[i].date.day <= start.day + 6
    ensures forall i :: 0 <= i < |plans| && start.day <= plans[i].date.day <= start.day + 6 ==> plans[i] in r
    ensures forall x :: multiset(r)[x] == if start.day <= x.date.day <= start.day + 6 then multiset(plans)[x] else 0
  {
    FilterMultiplicity(plans, InWeekByDay(start));
    Filter(plans, InWeekByDay(start))
  }

  /** The by-day week view depends on days alone, and contains what the
      instant-based one returns: it only adds plans the latter dropped. */
  lemma WeekByDayCoversWeek(plans: seq<MealPlan>, start: Instant, other: Instant)
    requires IsSameDay(start, other)
    ensures GetWeeklyMealPlansByDay(plans, start) == GetWeeklyMealPlansByDay(plans, other)
    ensures IsSubsequence(GetWeeklyMealPlans(plans, start), GetWeeklyMealPlansByDay(plans, start))
  {
    FilterAgree(plans, InWeekByDay(start), InWeekByDay(other));
    FilterMonotone(plans, InWeek(start), InWeekByDay(start));
  }
}

=== FILE: pantry.dfy ===
/** The pantry store (`src/context/PantryContext.tsx`): the ordered list of
    ingredients a user owns, and the one membership test every other part of
    the app uses to decide whether an ingredient is available. */
module Pantry {
  import opened Types
  import opened Seqs
  import opened Text

  /** `Partial<Ingredient>`: `None` leaves a field as it is. For the optional
      fields, `Some(None)` writes `undefined`. */
  datatype IngredientPatch = IngredientPatch(
    id: Option<string>,
    name: Option<string>,
    category: Option<IngredientCategory>,
    quantity: Option<Option<string>>,
    unit: Option<Option<string>>)

  const NoChanges := IngredientPatch(None, None, None, None, None)

  /** The object spread `{ ...item, ...updates }`. */
  function ApplyPatch(item: Ingredient, patch: IngredientPatch): Ingredient {
    Ingredient(
      patch.id.GetOr(item.id),
      patch.name.GetOr(item.name),
      patch.category.GetOr(item.category),
      patch.quantity.GetOr(item.quantity),
      patch.unit.GetOr(item.unit))
  }

  /** No entry of `items` carries `id`. */
  predicate Fresh(items: seq<Ingredient>, id: string) {
    forall i :: 0 <= i < |items| ==> items[i].id != id
  }

  predicate UniqueIds(items: seq<Ingredient>) {
    forall i, j :: 0 <= i < j < |items| ==> items[i].id != items[j].id
  }

  /** `hasIngredient`: some entry's name equals `name` up to case. */
  function HasIngredient(items: seq<Ingredient>, name: string): (r: bool)
    ensures r <==> exists i :: 0 <= i < |items| && EqualsIgnoreCase(items[i].name, name)
  {
    if |items| == 0 then false
    else if EqualsIgnoreCase(items[0].name, name) then true
    else
      var rest := HasIngredient(items[1..], name);
      assert forall i :: 1 <= i < |items| ==> items[i] == items[1..][i - 1];
      rest
  }

  /** `addToPantry`: appends the new entry under a fresh id; no merging with
      an entry of the same name. */
  function AddToPantry(items: seq<Ingredient>, draft: Ingredient, freshId: string): (r: seq<Ingredient>)
    requires Fresh(items, freshId)
    ensures |r| == |items| + 1 && r[..|items|] == items
    ensures r[|items|].id == freshId && r[|items|].name == draft.name
    ensures r[|items|].category == draft.category
    ensures r[|items|].quantity == draft.quantity && r[|items|].unit == draft.unit
  {
    items + [draft.(id := freshId)]
  }

  function NotId(id: string): Ingredient -> bool {
    (item: Ingredient) => item.id != id
  }

  /** `removeFromPantry`: drops every entry with `id` and keeps the rest in order. */
  function RemoveFromPantry(items: seq<Ingredient>, id: string): (r: seq<Ingredient>)
    ensures Fresh(r, id)
    ensures IsSubsequence(r, items)
    ensures forall i :: 0 <= i < |items| && items[i].id != id ==> items[i] in r
    ensures forall x :: multiset(r)[x] == if x.id == id then 0 else multiset(items)[x]
    ensures Fresh(items, id) ==> r == items
  {
    var r := Filter(items, NotId(id));
    FilterMultiplicity(items, NotId(id));
    if Fresh(items, id) then
      FilterKeepsAll(items, NotId(id));
      r
    else
      r
  }

  /** `updatePantryItem`: merges the patch into the entries carrying `id`;
      every other entry, and the length, stay as they are. */
  function UpdatePantryItem(items: seq<Ingredient>, id: string, patch: IngredientPatch): (r: seq<Ingredient>)
    ensures |r| == |items|
    ensures forall i :: 0 <= i < |items| && items[i].id == id ==> r[i] == ApplyPatch(items[i], patch)
    ensures forall i :: 0 <= i < |items| && items[i].id != id ==> r[i] == items[i]
  {
    MapWhere(items, HasId(id), Patcher(patch))
  }

  function HasId(id: string): Ingredient -> bool {
    (item: Ingredient) => item.id == id
  }

  function Patcher(patch: IngredientPatch): Ingredient -> Ingredient {
    (item: Ingredient) => ApplyPatch(item, patch)
  }

  /** `clearPantry`: no ingredient is available afterwards, and every id is
      free for the next add. */
  function ClearPantry(items: seq<Ingredient>): (r: seq<Ingredient>)
    ensures forall name :: !HasIngredient(r, name)
    ensures forall id :: Fresh(r, id)
  {
    []
  }

  function InCategory(category: IngredientCategory): Ingredient -> bool {
    (item: Ingredient) => item.category == category
  }

  /** `getIngredientsByCategory`: exactly the entries of `category`, in order. */
  function GetIngredientsByCategory(items: seq<Ingredient>, category: IngredientCategory): (r: seq<Ingredient>)
    ensures IsSubsequence(r, items)
    ensures forall i :: 0 <= i < |r| ==> r[i].category == category
    ensures forall i :: 0 <= i < |items| && items[i].category == category ==> items[i] in r
    ensures forall x :: multiset(r)[x] == if x.category == category then multiset(items)[x] else 0
  {
    FilterMultiplicity(items, InCategory(category));
    Filter(items, InCategory(category))
  }

  /** The six category views partition the pantry: each entry lies in the
      view of its own category, with all its copies, and the views' sizes
      add up to the pantry's. */
  lemma CategoriesPartition(items: seq<Ingredient>)
    ensures forall x: Ingredient :: multiset(GetIngredientsByCategory(items, x.category))[x] == multiset(items)[x]
    ensures |GetIngredientsByCategory(items, Produce)| + |GetIngredientsByCategory(items, Meat)|
          + |GetIngredientsByCategory(items, Dairy)| + |GetIngredientsByCategory(items, Grains)|
          + |GetIngredientsByCategory(items, Seasonings)| + |GetIngredientsByCategory(items, Other)| == |items|
  {
    CategorySizesAddUp(items);
  }

  /** The sizes of the six category views, summed. */
  function CategorySizes(items: seq<Ingredient>): nat {
    Count(items, InCategory(Produce)) + Count(items, InCategory(Meat))
    + Count(items, InCategory(Dairy)) + Count(items, InCategory(Grains))
    + Count(items, InCategory(Seasonings)) + Count(items, InCategory(Other))
  }

  lemma {:induction false} CategorySizesAddUp(items: seq<Ingredient>)
    ensures CategorySizes(items) == |items|
  {
    if |items| > 0 {
      var x, rest := items[0], items[1..];
      CategorySizesAddUp(rest);
      CountStep(x, rest, Produce);
      CountStep(x, rest, Meat);
      CountStep(x, rest, Dairy);
      CountStep(x, rest, Grains);
      CountStep(x, rest, Seasonings);
      CountStep(x, rest, Other);
      assert items == [x] + rest;
    }
  }

  lemma CountStep(x: Ingredient, rest: seq<Ingredient>, c: IngredientCategory)
    ensures Count([x] + rest, InCategory(c)) == Count(rest, InCategory(c)) + (if x.category == c then 1 else 0)
  {
    FilterCons(x, rest, InCategory(c));
  }

  /** After adding an ingredient, the pantry has it. */
  lemma AddThenHas(items: seq<Ingredient>, draft: Ingredient, freshId: string)
    requires Fresh(items, freshId)
    ensures HasIngredient(AddToPantry(items, draft, freshId), draft.name)
  {
    var r := AddToPantry(items, draft, freshId);
    assert EqualsIgnoreCase(r[|items|].name, draft.name);
  }

  /** Adding under a fresh id keeps ids unique. */
  lemma AddKeepsIdsUnique(items: seq<Ingredient>, draft: Ingredient, freshId: string)
    requires UniqueIds(items) && Fresh(items, freshId)
    ensures UniqueIds(AddToPantry(items, draft, freshId))
  {
  }

  /** Removing twice is removing once. */
  lemma RemoveIdempotent(items: seq<Ingredient>, id: string)
    ensures RemoveFromPantry(RemoveFromPantry(items, id), id) == RemoveFromPantry(items, id)
  {
  }

  /** An update for an id no entry carries, or with an empty patch, changes nothing. */
  lemma UpdateNoOp(items: seq<Ingredient>, id: string, patch: IngredientPatch)
    requires Fresh(items, id) || patch == NoChanges
    ensures UpdatePantryItem(items, id, patch) == items
  {
  }

  /** Once cleared, the pantry has no ingredient at all. */
  lemma ClearedHasNothing(items: seq<Ingredient>, name: string)
    ensures ClearPantry(items) == []
    ensures !HasIngredient(ClearPantry(items), name)
  {
  }

  /** Membership folds case and nothing else: names equal up to case are
      interchangeable, and a match always has the queried name's length, so
      there is no trimming and no substring match. */
  lemma HasIngredientFoldsCaseOnly(items: seq<Ingredient>, a: string, b: string)
    ensures EqualsIgnoreCase(a, b) ==> HasIngredient(items, a) == HasIngredient(items, b)
    ensures HasIngredient(items, a) ==> exists i :: 0 <= i < |items| && |items[i].name| == |a|
  {
    if HasIngredient(items, a) {
      var i :| 0 <= i < |items| && EqualsIgnoreCase(items[i].name, a);
      assert |Lower(items[i].name)| == |Lower(a)|;
    }
  }

  /** "Tomato" in the pantry does not make "Tomatoes" available, whatever the case. */
  lemma NoPluralMatching(id: string)
    ensures HasIngredient([Ingredient(id, "Tomato", Produce, None, None)], "tomato")
    ensures !HasIngredient([Ingredient(id, "Tomato", Produce, None, None)], "Tomatoes")
  {
    assert Lower("Tomato") == "tomato";
    assert Lower("tomato") == "tomato";
  }
}

=== FILE: recipe_card.dfy ===
/** The logic of the recipe card (`src/components/recipes/RecipeCard.tsx`): the
    pantry-match percentage and its colour band, the total time, and the
    tags shown in the footer. */
module RecipeCard {
  import opened Types
  import Recipes

  /** `Math.round(100 * a / n)` for `0 <= a <= n`, `n > 0`, computed exactly:
      halves round up. */
  function RoundPercent(a: nat, n: nat): (p: nat)
    requires 0 < n && a <= n
    ensures p <= 100
    ensures (p as real) - 0.5 <= 100.0 * (a as real / n as real) < (p as real) + 0.5
  {
    var p := (200 * a + n) / (2 * n);
    RoundPercentBounds(a, n, p);
    p
  }

  /** The integer quotient `(200a + n) div 2n` is within one half of `100a/n`. */
  lemma RoundPercentBounds(a: nat, n: nat, p: nat)
    requires 0 < n && a <= n && p == (200 * a + n) / (2 * n)
    ensures p <= 100
    ensures (p as real) - 0.5 <= 100.0 * (a as real / n as real) < (p as real) + 0.5
  {
    QuotientBounds(a, n, p);
    ScaleToReal(a, n, p);
  }

  /** The same bound in integers: `(2p - 1) n <= 200 a < (2p + 1) n`. */
  lemma QuotientBounds(a: nat, n: nat, p: nat)
    requires 0 < n && a <= n && p == (200 * a + n) / (2 * n)
    ensures (2 * p - 1) * n <= 200 * a < (2 * p + 1) * n
    ensures p <= 100
  {
    var q, d := 200 * a + n, 2 * n;
    var m := q % d;
    assert q == p * d + m && 0 <= m < d;
    assert p * d == 2 * p * n;
    assert (2 * p - 1) * n == 2 * p * n - n;
    assert (2 * p + 1) * n == 2 * p * n + n;
    assert p * d < 101 * d;
    LessByFactor(p, 101, d);
  }

  /** Cancelling a positive factor from a strict inequality. */
  lemma LessByFactor(x: nat, y: nat, d: nat)
    requires d > 0 && x * d < y * d
    ensures x < y
  {
    if x >= y {
      MulMonotone(y, x, d);
      assert false;
    }
  }

  lemma MulMonotone(x: nat, y: nat, d: nat)
    requires x <= y
    ensures x * d <= y * d
  {
    assert y * d == x * d + (y - x) * d;
  }

  lemma ScaleToReal(a: nat, n: nat, p: nat)
    requires 0 < n && (2 * p - 1) * n <= 200 * a < (2 * p + 1) * n
    ensures (p as real) - 0.5 <= 100.0 * (a as real / n as real) < (p as real) + 0.5
  {
    var nr := n as real;
    var lo, hi := (p as real) - 0.5, (p as real) + 0.5;
    assert ((2 * p - 1) * n) as real == (2.0 * p as real - 1.0) * nr;
    assert ((2 * p + 1) * n) as real == (2.0 * p as real + 1.0) * nr;
    assert lo * nr <= 100.0 * a as real < hi * nr;
    var x := a as real / nr;
    assert x * nr == a as real;
    assert 100.0 * x == (100.0 * a as real) / nr;
    DivideBounds(lo, 100.0 * a as real, hi, nr);
  }

  /** Dividing `lo * n <= v < hi * n` by a positive `n`. */
  lemma DivideBounds(lo: real, v: real, hi: real, n: real)
    requires n > 0.0 && lo * n <= v < hi * n
    ensures lo <= v / n < hi
  {
    var y := v / n;
    assert y * n == v;
  }

  /** The card's `matchPercentage`: the ratio over every ingredient line
      (optional ones included) as a rounded percentage, 0 without lines. */
  function MatchPercentage(pantry: seq<Ingredient>, recipe: Recipe): (p: nat)
    ensures p <= 100
    ensures |recipe.ingredients| == 0 ==> p == 0
    ensures (p as real) - 0.5 <= 100.0 * Recipes.MatchRatio(pantry, recipe) < (p as real) + 0.5
  {
    var n := |recipe.ingredients|;
    if n == 0 then 0 else RoundPercent(Recipes.AvailableCount(pantry, recipe.ingredients), n)
  }

  /** The colour of the percentage and its bar. */
  datatype Band = Green | Amber | Red

  /** 70 and above is green, 40 and above amber, anything lower red. */
  function BandOf(p: int): (b: Band)
    ensures b == Green <==> p >= 70
    ensures b == Amber <==> 40 <= p < 70
    ensures b == Red <==> p < 40
  {
    if p >= 70 then Green else if p >= 40 then Amber else Red
  }

  /** Every recipe that reaches the default ranking threshold shows green;
      a green card's ratio is at least 0.695, so a green card may still fall
      below the threshold. */
  lemma GreenAtDefaultThreshold(pantry: seq<Ingredient>, recipe: Recipe)
    ensures Recipes.MatchRatio(pantry, recipe) >= Recipes.DefaultThreshold ==> BandOf(MatchPercentage(pantry, recipe)) == Green
    ensures BandOf(MatchPercentage(pantry, recipe)) == Green <==> 100.0 * Recipes.MatchRatio(pantry, recipe) >= 69.5
  {
    var p := MatchPercentage(pantry, recipe);
    var v := 100.0 * Recipes.MatchRatio(pantry, recipe);
    if v >= 69.5 {
      assert (p as real) > 69.0;
    }
    if p >= 70 {
      assert (p as real) >= 70.0;
    }
  }

  /** Everything `getMatchingRecipes` returns with the default threshold is
      shown with a green percentage. */
  lemma RankedRecipesShowGreen(cat: Recipes.Catalog, pantry: seq<Ingredient>)
    ensures forall i :: 0 <= i < |Recipes.GetMatchingRecipes(cat, pantry, None)| ==>
              BandOf(MatchPercentage(pantry, Recipes.GetMatchingRecipes(cat, pantry, None)[i].recipe)) == Green
  {
    var ranked := Recipes.GetMatchingRecipes(cat, pantry, None);
    forall i | 0 <= i < |ranked|
      ensures BandOf(MatchPercentage(pantry, ranked[i].recipe)) == Green
    {
      GreenAtDefaultThreshold(pantry, ranked[i].recipe);
    }
  }

  /** A full match shows 100% and a match of nothing 0%. */
  lemma PercentageExtremes(pantry: seq<Ingredient>, recipe: Recipe)
    ensures |recipe.ingredients| > 0 && Recipes.AllAvailable(pantry, recipe.ingredients) ==> MatchPercentage(pantry, recipe) == 100
    ensures Recipes.NoneAvailable(pantry, recipe.ingredients) ==> MatchPercentage(pantry, recipe) == 0
  {
    var p := MatchPercentage(pantry, recipe);
    if |recipe.ingredients| > 0 && Recipes.AllAvailable(pantry, recipe.ingredients) {
      assert (p as real) + 0.5 > 100.0;
    }
    if Recipes.NoneAvailable(pantry, recipe.ingredients) {
      assert (p as real) - 0.5 <= 0.0;
    }
  }

  /** What the card shows of a recipe. The match block (percentage and
      band) is absent unless the caller asks for it. */
  datatype CardView = CardView(
    link: string,
    title: string,
    description: string,
    imageUrl: string,
    author: string,
    totalTime: int,
    percentage: Option<nat>,
    band: Option<Band>,
    tags: seq<string>,
    mealTypes: seq<MealType>)

  function Min(a: nat, b: nat): nat {
    if a < b then a else b
  }

  /** The card: a link to the recipe's page, the total time, the match
      percentage and band when `showMatch` (`showMatchedIngredients`, false
      by default) is set, at most three dietary tags and at most one meal
      type, each the first of its list. */
  function Card(pantry: seq<Ingredient>, recipe: Recipe, showMatch: bool): (v: CardView)
    ensures v.link == "/recipe/" + recipe.id
    ensures v.title == recipe.title && v.description == recipe.description
    ensures v.imageUrl == recipe.imageUrl && v.author == recipe.author
    ensures v.totalTime == recipe.prepTime + recipe.cookTime
    ensures v.percentage.Some? <==> showMatch
    ensures v.band.Some? <==> showMatch
    ensures showMatch ==> v.percentage.value == MatchPercentage(pantry, recipe) && v.band.value == BandOf(v.percentage.value)
    ensures |v.tags| == Min(3, |recipe.dietaryTags|) && v.tags == recipe.dietaryTags[..|v.tags|]
    ensures |v.mealTypes| <= 1 && (|v.mealTypes| == 1 <==> |recipe.mealType| > 0)
    ensures |recipe.mealType| > 0 ==> v.mealTypes == [recipe.mealType[0]]
  {
    var p := MatchPercentage(pantry, recipe);
    CardView(
      "/recipe/" + recipe.id, recipe.title, recipe.description, recipe.imageUrl, recipe.author,
      recipe.TotalTime(),
      if showMatch then Some(p) else None,
      if showMatch then Some(BandOf(p)) else None,
      recipe.dietaryTags[..Min(3, |recipe.dietaryTags|)],
      recipe.mealType[..Min(1, |recipe.mealType|)])
  }

  /** Two pantries that agree on which lines are available give the same card. */
  lemma CardDependsOnAvailableCount(p1: seq<Ingredient>, p2: seq<Ingredient>, recipe: Recipe, showMatch: bool)
    requires Recipes.AvailableCount(p1, recipe.ingredients) == Recipes.AvailableCount(p2, recipe.ingredients)
    ensures Card(p1, recipe, showMatch) == Card(p2, recipe, showMatch)
  {
  }

  /** Without the match block the card does not depend on the pantry at all. */
  lemma HiddenMatchIgnoresPantry(p1: seq<Ingredient>, p2: seq<Ingredient>, recipe: Recipe)
    ensures Card(p1, recipe, false) == Card(p2, recipe, false)
  {
  }
}

=== FILE: recipe_detail.dfy ===
/** The logic of the recipe detail page (`src/components/recipes/RecipeDetail.tsx`):
    "Add Missing to Shopping List" and the Missing / In Pantry tags. */
module RecipeDetail {
  import opened Types
  import opened Seqs
  import Pantry
  import Recipes
  import ShoppingList
  import MealPlans

  /** The item handed to `addToShoppingList` for a missing line: name,
      quantity and unit copied, category `Other`. Its id is replaced by the
      store's fresh id. */
  function ShoppingDraft(ing: RecipeIngredient): Ingredient {
    Ingredient("", ing.name, Other, Some(ing.quantity), Some(ing.unit))
  }

  /** The ids are distinct and none is already on the list. */
  predicate FreshIds(items: seq<ShoppingListItem>, ids: seq<string>) {
    && (forall k :: 0 <= k < |ids| ==> ShoppingList.Fresh(items, ids[k]))
    && (forall k, l :: 0 <= k < l < |ids| ==> ids[k] != ids[l])
  }

  /** The row `addToShoppingList` appends for `ing` under `id`. */
  function RowFor(ing: RecipeIngredient, id: string): ShoppingListItem {
    ShoppingListItem(ShoppingDraft(ing).(id := id), false)
  }

  /** `row` is the unchecked item made from `line` under `id`: name,
      quantity and unit copied, category `Other`. */
  predicate CopiesLine(row: ShoppingListItem, line: RecipeIngredient, id: string) {
    && !row.checked
    && row.ingredient.id == id
    && row.ingredient.name == line.name
    && row.ingredient.category == Other
    && row.ingredient.quantity == Some(line.quantity)
    && row.ingredient.unit == Some(line.unit)
  }

  /** One `addToShoppingList` call per line, in order. */
  function AddEach(items: seq<ShoppingListItem>, lines: seq<RecipeIngredient>, ids: seq<string>): (r: seq<ShoppingListItem>)
    requires |ids| == |lines| && FreshIds(items, ids)
    ensures |r| == |items| + |lines| && r[..|items|] == items
    ensures forall k :: 0 <= k < |lines| ==> r[|items| + k] == RowFor(lines[k], ids[k])
    ensures forall k :: 0 <= k < |lines| ==> CopiesLine(r[|items| + k], lines[k], ids[k])
    decreases |lines|
  {
    if |lines| == 0 then items
    else
      var next := ShoppingList.AddToShoppingList(items, ShoppingDraft(lines[0]), ids[0]);
      assert next[|items|] == RowFor(lines[0], ids[0]);
      var r := AddEach(next, lines[1..], ids[1..]);
      assert forall k :: 1 <= k < |lines| ==> r[|next| + (k - 1)] == RowFor(lines[k], ids[k]);
      assert r[..|items|] == r[..|next|][..|items|];
      r
  }

  /** What the button leaves behind: the new list and the count the toast reports. */
  datatype AddMissingResult = AddMissingResult(list: seq<ShoppingListItem>, added: nat)

  /** `handleAddMissingToList`: appends one unchecked `Other` item per
      required line the pantry lacks, in recipe order, after the existing
      list; the reported count is the number appended. */
  function HandleAddMissingToList(items: seq<ShoppingListItem>, pantry: seq<Ingredient>, recipe: Recipe, ids: seq<string>): (r: AddMissingResult)
    requires |ids| == |Recipes.MissingOf(pantry, recipe)| && FreshIds(items, ids)
    ensures |r.list| == |items| + r.added && r.list[..|items|] == items
    ensures r.added == |Recipes.MissingOf(pantry, recipe)|
    ensures forall k :: 0 <= k < r.added ==> CopiesLine(r.list[|items| + k], Recipes.MissingOf(pantry, recipe)[k], ids[k])
  {
    var missing := Recipes.MissingOf(pantry, recipe);
    AddMissingResult(AddEach(items, missing, ids), |missing|)
  }

  /** The appended rows are named after the missing lines, which form an
      ordered subsequence of the recipe holding every required line the
      pantry lacks. */
  lemma AddedRowsFollowRecipe(items: seq<ShoppingListItem>, pantry: seq<Ingredient>, recipe: Recipe, ids: seq<string>)
    requires |ids| == |Recipes.MissingOf(pantry, recipe)| && FreshIds(items, ids)
    ensures var r := HandleAddMissingToList(items, pantry, recipe, ids);
            forall i :: 0 <= i < |recipe.ingredients| &&
                        !recipe.ingredients[i].optional && !Pantry.HasIngredient(pantry, recipe.ingredients[i].name) ==>
              exists k :: 0 <= k < r.added && r.list[|items| + k] == RowFor(recipe.ingredients[i], ids[k])
  {
    var missing := Recipes.MissingOf(pantry, recipe);
    var r := HandleAddMissingToList(items, pantry, recipe, ids);
    forall i | 0 <= i < |recipe.ingredients| &&
               !recipe.ingredients[i].optional && !Pantry.HasIngredient(pantry, recipe.ingredients[i].name)
      ensures exists k :: 0 <= k < r.added && r.list[|items| + k] == RowFor(recipe.ingredients[i], ids[k])
    {
      var k :| 0 <= k < |missing| && missing[k] == recipe.ingredients[i];
      assert r.list[|items| + k] == RowFor(missing[k], ids[k]);
    }
  }

  /** The ids handed in stay distinct from the list's ids, so the list keeps unique ids. */
  lemma AddMissingKeepsIdsUnique(items: seq<ShoppingListItem>, pantry: seq<Ingredient>, recipe: Recipe, ids: seq<string>)
    requires |ids| == |Recipes.MissingOf(pantry, recipe)| && FreshIds(items, ids)
    requires ShoppingList.UniqueIds(items)
    ensures ShoppingList.UniqueIds(HandleAddMissingToList(items, pantry, recipe, ids).list)
  {
    var r := HandleAddMissingToList(items, pantry, recipe, ids).list;
    forall i, j | 0 <= i < j < |r|
      ensures ShoppingList.Id(r[i]) != ShoppingList.Id(r[j])
    {
      if j >= |items| {
        assert ShoppingList.Id(r[j]) == ids[j - |items|];
        if i >= |items| {
          assert ShoppingList.Id(r[i]) == ids[i - |items|];
        } else {
          assert r[i] == items[i];
        }
      } else {
        assert r[i] == items[i] && r[j] == items[j];
      }
    }
  }

  /** `handleAddToMealPlan`: puts the recipe into the chosen slot of today's
      plan, creating the plan when the day has none; `today` is the clock
      reading. Every other plan stays where it was, and with unique ids the
      plans of other days are untouched. */
  function HandleAddToMealPlan(plans: seq<MealPlan>, today: Instant, t: MealType, recipe: Recipe, freshId: string): (r: seq<MealPlan>)
    requires MealPlans.Fresh(plans, freshId)
    ensures MealPlans.GetMealPlanByDate(r, today).Some?
    ensures Filter(MealPlans.GetMealPlanByDate(r, today).value.meals, MealPlans.IsType(t)) == [Meal(t, recipe.id)]
    ensures MealPlans.AtMostOnePerDay(plans) ==> MealPlans.AtMostOnePerDay(r)
    ensures MealPlans.GetMealPlanByDate(plans, today).None? ==>
              r == plans + [MealPlan(freshId, today, [Meal(t, recipe.id)])]
    ensures MealPlans.GetMealPlanByDate(plans, today).Some? ==> |r| == |plans|
    ensures forall i :: 0 <= i < |plans| ==> r[i].id == plans[i].id && r[i].date == plans[i].date
    ensures MealPlans.UniqueIds(plans) ==>
              forall i :: 0 <= i < |plans| && !MealPlans.IsSameDay(plans[i].date, today) ==> r[i] == plans[i]
  {
    var r := MealPlans.AddMealToDate(plans, today, t, recipe.id, freshId);
    MealPlans.AddMealToDateFillsSlot(plans, today, t, recipe.id, freshId);
    MealPlans.AddMealToDateKeepsOtherDays(plans, today, t, recipe.id, freshId);
    if MealPlans.AtMostOnePerDay(plans) then
      MealPlans.AddMealToDateKeepsOnePerDay(plans, today, t, recipe.id, freshId);
      r
    else r
  }

  /** The tags shown beside one ingredient line. */
  datatype Tags = Tags(missing: bool, inPantry: bool)

  /** `IngredientItem`: "Missing" for an unavailable required line, "In
      Pantry" for an available one; never both. */
  function IngredientTags(pantry: seq<Ingredient>, ing: RecipeIngredient): (t: Tags)
    ensures t.missing <==> !Pantry.HasIngredient(pantry, ing.name) && !ing.optional
    ensures t.inPantry <==> Pantry.HasIngredient(pantry, ing.name)
    ensures !(t.missing && t.inPantry)
  {
    var available := Pantry.HasIngredient(pantry, ing.name);
    Tags(!available && !ing.optional, available)
  }

  /** The "Missing" tag marks exactly the lines the button would add, and an
      unavailable optional line carries no tag at all. */
  lemma MissingTagMatchesMissingList(pantry: seq<Ingredient>, recipe: Recipe, i: nat)
    requires i < |recipe.ingredients|
    ensures IngredientTags(pantry, recipe.ingredients[i]).missing <==>
            recipe.ingredients[i] in Recipes.MissingOf(pantry, recipe)
    ensures recipe.ingredients[i].optional && !Pantry.HasIngredient(pantry, recipe.ingredients[i].name) ==>
            IngredientTags(pantry, recipe.ingredients[i]) == Tags(false, false)
  {
    var m := Recipes.MissingOf(pantry, recipe);
    if recipe.ingredients[i] in m {
      var k :| 0 <= k < |m| && m[k] == recipe.ingredients[i];
    }
  }
}

=== FILE: recipe_form.dfy ===
/** The logic of the recipe form (`src/components/recipes/RecipeForm.tsx`):
    editing the ingredient rows and steps, the meal-type and tag toggles, and
    turning a submitted form into a new user recipe. */
module RecipeForm {
  import opened Types
  import opened Seqs
  import opened Text
  import RecipeFilter
  import Recipes

  /** An ingredient row as typed: a recipe line without its id. */
  datatype IngredientRow = IngredientRow(name: string, quantity: string, unit: string, optional: bool)

  /** The form's state. The three numeric fields hold the text typed in. */
  datatype Form = Form(
    title: string,
    description: string,
    ingredients: seq<IngredientRow>,
    steps: seq<string>,
    mealTypes: seq<MealType>,
    dietaryTags: seq<string>,
    prepTime: string,
    cookTime: string,
    servings: string)

  const BlankRow := IngredientRow("", "", "", false)

  /** A fresh form: one blank ingredient row, one blank step, nothing ticked. */
  const InitialForm := Form("", "", [BlankRow], [""], [], [], "", "", "")

  const Author := "You"
  const PlaceholderImage := "/lovable-uploads/face83d4-cc3a-41a0-8a35-757bc6fa1da6.png"
  const DefaultMealType := Dinner

  /** "Add Ingredient": one blank row at the end. */
  function AddIngredientRow(f: Form): (r: Form)
    ensures |r.ingredients| == |f.ingredients| + 1
    ensures r.ingredients[..|f.ingredients|] == f.ingredients && r.ingredients[|f.ingredients|] == BlankRow
    ensures r.(ingredients := f.ingredients) == f
  {
    f.(ingredients := f.ingredients + [BlankRow])
  }

  /** "Add Step": one empty step at the end. */
  function AddStep(f: Form): (r: Form)
    ensures |r.steps| == |f.steps| + 1
    ensures r.steps[..|f.steps|] == f.steps && r.steps[|f.steps|] == ""
    ensures r.(steps := f.steps) == f
  {
    f.(steps := f.steps + [""])
  }

  /** `filter((_, i) => i !== index)`: drops the element at `index` and shifts
      the rest down; an index outside the list removes nothing. */
  function RemoveAt<T>(s: seq<T>, index: int): (r: seq<T>)
    ensures 0 <= index < |s| ==> |r| == |s| - 1
    ensures 0 <= index < |s| ==> forall j :: 0 <= j < index ==> r[j] == s[j]
    ensures 0 <= index < |s| ==> forall j :: index <= j < |r| ==> r[j] == s[j + 1]
    ensures !(0 <= index < |s|) ==> r == s
  {
    if 0 <= index < |s| then s[..index] + s[index + 1..] else s
  }

  function RemoveIngredientRow(f: Form, index: int): (r: Form)
    ensures r.ingredients == RemoveAt(f.ingredients, index)
    ensures r.(ingredients := f.ingredients) == f
  {
    f.(ingredients := RemoveAt(f.ingredients, index))
  }

  function RemoveStep(f: Form, index: int): (r: Form)
    ensures r.steps == RemoveAt(f.steps, index)
    ensures r.(steps := f.steps) == f
  {
    f.(steps := RemoveAt(f.steps, index))
  }

  /** Removing the row just added restores the form. */
  lemma AddThenRemoveRow(f: Form)
    ensures RemoveIngredientRow(AddIngredientRow(f), |f.ingredients|) == f
    ensures RemoveStep(AddStep(f), |f.steps|) == f
  {
    assert RemoveAt(f.ingredients + [BlankRow], |f.ingredients|) == f.ingredients;
    assert RemoveAt(f.steps + [""], |f.steps|) == f.steps;
  }

  /** One field of an ingredient row, with its new value. */
  datatype RowEdit = EditName(name: string) | EditQuantity(quantity: string) | EditUnit(unit: string) | EditOptional(optional: bool)

  /** `{ ...row, [field]: value }`. */
  function ApplyEdit(row: IngredientRow, edit: RowEdit): IngredientRow {
    match edit
    case EditName(v) => row.(name := v)
    case EditQuantity(v) => row.(quantity := v)
    case EditUnit(v) => row.(unit := v)
    case EditOptional(v) => row.(optional := v)
  }

  /** `handleIngredientChange`: edits one field of the row at `index`; the
      index always comes from a rendered row. */
  function ChangeIngredient(f: Form, index: nat, edit: RowEdit): (r: Form)
    requires index < |f.ingredients|
    ensures |r.ingredients| == |f.ingredients|
    ensures r.ingredients[index] == ApplyEdit(f.ingredients[index], edit)
    ensures forall j :: 0 <= j < |f.ingredients| && j != index ==> r.ingredients[j] == f.ingredients[j]
    ensures r.(ingredients := f.ingredients) == f
  {
    f.(ingredients := f.ingredients[index := ApplyEdit(f.ingredients[index], edit)])
  }

  /** `handleStepChange`: replaces the text of the step at `index`. */
  function ChangeStep(f: Form, index: nat, text: string): (r: Form)
    requires index < |f.steps|
    ensures |r.steps| == |f.steps| && r.steps[index] == text
    ensures forall j :: 0 <= j < |f.steps| && j != index ==> r.steps[j] == f.steps[j]
    ensures r.(steps := f.steps) == f
  {
    f.(steps := f.steps[index := text])
  }

  /** An edit touches only its own field: editing the name leaves quantity,
      unit and the optional flag of the row as they were, and re-applying
      the old name restores the row. */
  lemma EditNameRoundTrip(f: Form, index: nat, name: string)
    requires index < |f.ingredients|
    ensures var g := ChangeIngredient(f, index, EditName(name));
            && g.ingredients[index].name == name
            && g.ingredients[index].(name := f.ingredients[index].name) == f.ingredients[index]
            && ChangeIngredient(g, index, EditName(f.ingredients[index].name)) == f
  {
    var g := ChangeIngredient(f, index, EditName(name));
    var h := ChangeIngredient(g, index, EditName(f.ingredients[index].name));
    assert h.ingredients == f.ingredients;
  }

  /** `handleMealTypeChange`. */
  function ToggleMealType(f: Form, t: MealType): (r: Form)
    ensures t in r.mealTypes <==> t !in f.mealTypes
    ensures forall m :: m != t ==> (m in r.mealTypes <==> m in f.mealTypes)
    ensures t !in f.mealTypes ==> r.mealTypes == f.mealTypes + [t]
    ensures t in f.mealTypes ==> IsSubsequence(r.mealTypes, f.mealTypes) && |r.mealTypes| < |f.mealTypes|
    ensures t in f.mealTypes ==> forall m :: multiset(r.mealTypes)[m] == if m == t then 0 else multiset(f.mealTypes)[m]
    ensures r.(mealTypes := f.mealTypes) == f
  {
    f.(mealTypes := RecipeFilter.Toggle(f.mealTypes, t))
  }

  /** `handleDietaryTagChange`. */
  function ToggleDietaryTag(f: Form, tag: string): (r: Form)
    ensures tag in r.dietaryTags <==> tag !in f.dietaryTags
    ensures forall g :: g != tag ==> (g in r.dietaryTags <==> g in f.dietaryTags)
    ensures tag !in f.dietaryTags ==> r.dietaryTags == f.dietaryTags + [tag]
    ensures tag in f.dietaryTags ==> IsSubsequence(r.dietaryTags, f.dietaryTags) && |r.dietaryTags| < |f.dietaryTags|
    ensures tag in f.dietaryTags ==> forall g :: multiset(r.dietaryTags)[g] == if g == tag then 0 else multiset(f.dietaryTags)[g]
    ensures r.(dietaryTags := f.dietaryTags) == f
  {
    f.(dietaryTags := RecipeFilter.Toggle(f.dietaryTags, tag))
  }

  /** What `parseInt` makes of a field: a number, or `NaN`. Which texts give
      which numbers is left to the caller-supplied parser. */
  datatype Parsed = NaN | Num(n: int)

  /** `parseInt(text) || fallback`: `NaN` and `0` are both falsy. */
  function NumberOr(p: Parsed, fallback: int): (r: int)
    ensures r == fallback || (p == Num(r) && r != 0)
    ensures p.Num? && p.n != 0 ==> r == p.n
  {
    if p.Num? && p.n != 0 then p.n else fallback
  }

  predicate FilledRow(row: IngredientRow) {
    Trim(row.name) != ""
  }

  predicate FilledStep(step: string) {
    Trim(step) != ""
  }

  function FilledRowFn(): IngredientRow -> bool {
    (row: IngredientRow) => FilledRow(row)
  }

  function FilledStepFn(): string -> bool {
    (step: string) => FilledStep(step)
  }

  /** The id given to the `idx`-th kept ingredient: `new-<idx>`. */
  function LineId(idx: nat): string {
    "new-" + NatToString(idx)
  }

  /** Distinct positions get distinct ids. */
  lemma LineIdsDistinct(a: nat, b: nat)
    requires a != b
    ensures LineId(a) != LineId(b)
  {
    if LineId(a) == LineId(b) {
      assert LineId(a)[4..] == NatToString(a);
      assert LineId(b)[4..] == NatToString(b);
      NatToStringInjective(a, b);
    }
  }

  /** The kept rows become recipe lines numbered by position; the form has
      no substitutes field. */
  function NumberLines(rows: seq<IngredientRow>): (r: seq<RecipeIngredient>)
    ensures |r| == |rows|
    ensures forall i :: 0 <= i < |rows| ==>
              && r[i].id == LineId(i) && r[i].name == rows[i].name
              && r[i].quantity == rows[i].quantity && r[i].unit == rows[i].unit
              && r[i].optional == rows[i].optional && r[i].substitutes == None
  {
    seq(|rows|, i requires 0 <= i < |rows| =>
      RecipeIngredient(LineId(i), rows[i].name, rows[i].quantity, rows[i].unit, rows[i].optional, None))
  }

  /** Why a submission is refused. Ingredients are checked before steps. */
  datatype SubmitError = NoIngredients | NoSteps

  /** `handleSubmit`: drops blank rows and steps, refuses the form when none
      of either is left, and otherwise builds the recipe handed to
      `addRecipe` (its id is assigned by the store). */
  function Submit(f: Form, parse: string -> Parsed): (r: Result<Recipe, SubmitError>)
    ensures r == Failure(NoIngredients) <==> Count(f.ingredients, FilledRowFn()) == 0
    ensures r == Failure(NoSteps) <==> Count(f.ingredients, FilledRowFn()) > 0 && Count(f.steps, FilledStepFn()) == 0
    ensures r.Success? ==>
              && r.value.title == f.title && r.value.description == f.description
              && r.value.author == Author && r.value.imageUrl == PlaceholderImage
              && r.value.ingredients == NumberLines(Filter(f.ingredients, FilledRowFn()))
              && r.value.steps == Filter(f.steps, FilledStepFn())
              && r.value.dietaryTags == f.dietaryTags
              && r.value.mealType == (if |f.mealTypes| > 0 then f.mealTypes else [DefaultMealType])
              && r.value.prepTime == NumberOr(parse(f.prepTime), 0)
              && r.value.cookTime == NumberOr(parse(f.cookTime), 0)
              && r.value.servings == NumberOr(parse(f.servings), 1)
  {
    var rows := Filter(f.ingredients, FilledRowFn());
    var steps := Filter(f.steps, FilledStepFn());
    if |rows| == 0 then Failure(NoIngredients)
    else if |steps| == 0 then Failure(NoSteps)
    else
      Success(Recipe(
        "", f.title, Author, f.description, PlaceholderImage,
        NumberLines(rows), steps, f.dietaryTags,
        if |f.mealTypes| > 0 then f.mealTypes else [DefaultMealType],
        NumberOr(parse(f.prepTime), 0),
        NumberOr(parse(f.cookTime), 0),
        NumberOr(parse(f.servings), 1)))
  }

  /** A submitted recipe is well formed: at least one ingredient and one
      step, none of them blank, distinct line ids, at least one meal type,
      and a non-zero serving count. */
  lemma SubmittedRecipeWellFormed(f: Form, parse: string -> Parsed)
    ensures Submit(f, parse).Success? ==>
            var rec := Submit(f, parse).value;
            && |rec.ingredients| > 0 && |rec.steps| > 0 && |rec.mealType| > 0
            && (forall i :: 0 <= i < |rec.ingredients| ==> Trim(rec.ingredients[i].name) != "")
            && (forall i :: 0 <= i < |rec.steps| ==> Trim(rec.steps[i]) != "")
            && (forall i, j :: 0 <= i < j < |rec.ingredients| ==> rec.ingredients[i].id != rec.ingredients[j].id)
            && rec.servings != 0
  {
    if Submit(f, parse).Failure? {
      return;
    }
    var rec := Submit(f, parse).value;
    var rows := Filter(f.ingredients, FilledRowFn());
    forall i | 0 <= i < |rec.ingredients|
      ensures Trim(rec.ingredients[i].name) != ""
    {
      assert FilledRowFn()(rows[i]);
    }
    forall i | 0 <= i < |rec.steps|
      ensures Trim(rec.steps[i]) != ""
    {
      assert FilledStepFn()(rec.steps[i]);
    }
    forall i, j | 0 <= i < j < |rec.ingredients|
      ensures rec.ingredients[i].id != rec.ingredients[j].id
    {
      LineIdsDistinct(i, j);
    }
  }

  /** Every row whose name is not blank reaches the recipe, with its
      quantity, unit and optional flag; so does every non-blank step. */
  lemma SubmitKeepsFilledRows(f: Form, parse: string -> Parsed, i: nat)
    requires i < |f.ingredients| && FilledRow(f.ingredients[i])
    ensures Submit(f, parse).Success? ==>
              exists k :: 0 <= k < |Submit(f, parse).value.ingredients| &&
                (var line := Submit(f, parse).value.ingredients[k];
                 IngredientRow(line.name, line.quantity, line.unit, line.optional) == f.ingredients[i])
  {
    if Submit(f, parse).Failure? {
      return;
    }
    var rows := Filter(f.ingredients, FilledRowFn());
    assert FilledRowFn()(f.ingredients[i]);
    var k :| 0 <= k < |rows| && rows[k] == f.ingredients[i];
    var line := Submit(f, parse).value.ingredients[k];
    assert IngredientRow(line.name, line.quantity, line.unit, line.optional) == rows[k];
  }

  /** The untouched form is refused for want of ingredients. */
  lemma InitialFormRefused(parse: string -> Parsed)
    ensures Submit(InitialForm, parse) == Failure(NoIngredients)
  {
    assert Trim(BlankRow.name) == "";
    assert !FilledRowFn()(InitialForm.ingredients[0]);
    assert Filter(InitialForm.ingredients, FilledRowFn()) == [];
  }

  /** Submitting and handing the result to `addRecipe`: on success the catalog
      gains exactly the submitted recipe under the fresh id, reachable by
      lookup; on refusal the catalog is unchanged. */
  function SubmitToCatalog(cat: Recipes.Catalog, f: Form, parse: string -> Parsed, freshId: string): (r: (Recipes.Catalog, Result<Recipe, SubmitError>))
    requires Recipes.Fresh(cat.All(), freshId)
    ensures r.1.Failure? ==> r.0 == cat && r.1 == Submit(f, parse)
    ensures r.1.Success? ==> Submit(f, parse).Success? && r.1.value == Submit(f, parse).value.(id := freshId)
    ensures r.1.Success? ==> Recipes.GetRecipeById(r.0, freshId) == Some(r.1.value)
    ensures r.1.Success? ==> r.0.builtIns == cat.builtIns && r.0.userRecipes == cat.userRecipes + [r.1.value]
  {
    match Submit(f, parse)
    case Failure(e) => (cat, Failure(e))
    case Success(draft) => (Recipes.AddRecipe(cat, draft, freshId), Success(draft.(id := freshId)))
  }
}

=== FILE: recipe_list.dfy ===
/** The filtering logic of the recipe list (`src/components/recipes/RecipeList.tsx`):
    the search box, the meal-type checkboxes (any of) and the dietary-tag
    checkboxes (all of), plus the toggles that maintain the selections. */
module RecipeFilter {
  import opened Types
  import opened Seqs
  import opened Text
  import Recipes

  function NotEqual<T(==)>(x: T): T -> bool {
    (y: T) => y != x
  }

  /** `prev.includes(x) ? prev.filter(t => t !== x) : [...prev, x]`: the
      selection toggle shared by the recipe list and the recipe form. */
  function Toggle<T(==)>(xs: seq<T>, x: T): (r: seq<T>)
    ensures x in r <==> x !in xs
    ensures forall i :: 0 <= i < |xs| && xs[i] != x ==> xs[i] in r
    ensures forall i :: 0 <= i < |r| && r[i] != x ==> r[i] in xs
    ensures x !in xs ==> r == xs + [x]
    ensures x in xs ==> IsSubsequence(r, xs) && |r| < |xs|
    ensures x in xs ==> multiset(r) == multiset(xs)[x := 0]
  {
    if x in xs then
      var r := Filter(xs, NotEqual(x));
      FilterFullLength(xs, NotEqual(x));
      FilterMultiplicity(xs, NotEqual(x));
      assert multiset(r) == multiset(xs)[x := 0];
      r
    else xs + [x]
  }

  /** Toggling the same value twice restores the set of selected values. */
  lemma ToggleTwice<T>(xs: seq<T>, x: T, y: T)
    ensures y in Toggle(Toggle(xs, x), x) <==> y in xs
  {
    if y != x {
      var once := Toggle(xs, x);
      if y in xs {
        var i :| 0 <= i < |xs| && xs[i] == y;
        var j :| 0 <= j < |once| && once[j] == y;
      }
    }
  }

  /** The three controls of the list. */
  datatype Criteria = Criteria(searchTerm: string, mealTypes: seq<MealType>, dietaryTags: seq<string>)

  const NoCriteria := Criteria("", [], [])

  /** An empty search term filters nothing; otherwise the lower-cased title
      must contain the lower-cased term. */
  predicate MatchesSearch(term: string, recipe: Recipe) {
    term == "" || Contains(Lower(recipe.title), Lower(term))
  }

  /** At least one of the recipe's meal types is selected, or none is selected. */
  predicate MatchesMealTypes(selected: seq<MealType>, recipe: Recipe) {
    |selected| == 0 || exists i :: 0 <= i < |recipe.mealType| && recipe.mealType[i] in selected
  }

  /** The recipe carries every selected tag (vacuously so when none is selected). */
  predicate MatchesTags(selected: seq<string>, recipe: Recipe) {
    |selected| == 0 || forall i :: 0 <= i < |selected| ==> selected[i] in recipe.dietaryTags
  }

  predicate Keeps(c: Criteria, recipe: Recipe) {
    MatchesSearch(c.searchTerm, recipe) && MatchesMealTypes(c.mealTypes, recipe) && MatchesTags(c.dietaryTags, recipe)
  }

  function KeepsFn(c: Criteria): Recipe -> bool {
    (recipe: Recipe) => Keeps(c, recipe)
  }

  /** `filteredRecipes`: the recipes passing all three controls, in order. */
  function FilterRecipes(recipes: seq<Recipe>, c: Criteria): (r: seq<Recipe>)
    ensures IsSubsequence(r, recipes)
    ensures forall i :: 0 <= i < |r| ==> Keeps(c, r[i])
    ensures forall i :: 0 <= i < |recipes| && Keeps(c, recipes[i]) ==> recipes[i] in r
    ensures forall x :: multiset(r)[x] == if Keeps(c, x) then multiset(recipes)[x] else 0
  {
    FilterMultiplicity(recipes, KeepsFn(c));
    Filter(recipes, KeepsFn(c))
  }

  /** With nothing typed and nothing ticked, the list is shown unchanged. */
  lemma NoCriteriaKeepsAll(recipes: seq<Recipe>)
    ensures FilterRecipes(recipes, NoCriteria) == recipes
  {
    FilterKeepsAll(recipes, KeepsFn(NoCriteria));
  }

  /** A non-empty search term keeps exactly the recipes whose lower-cased
      title has the lower-cased term at some position. */
  lemma SearchIsCaseInsensitiveSubstring(recipes: seq<Recipe>, c: Criteria, i: nat)
    requires c.searchTerm != "" && i < |FilterRecipes(recipes, c)|
    ensures exists k :: OccursAt(Lower(FilterRecipes(recipes, c)[i].title), Lower(c.searchTerm), k)
  {
    var recipe := FilterRecipes(recipes, c)[i];
    assert Keeps(c, recipe);
    assert Contains(Lower(recipe.title), Lower(c.searchTerm));
  }

  /** Terms equal up to case select the same recipes. */
  lemma SearchIgnoresCase(recipes: seq<Recipe>, c: Criteria, term: string)
    requires Lower(term) == Lower(c.searchTerm)
    ensures FilterRecipes(recipes, c.(searchTerm := term)) == FilterRecipes(recipes, c)
  {
    FilterAgree(recipes, KeepsFn(c.(searchTerm := term)), KeepsFn(c));
  }

  /** Ticking more dietary tags can only shrink the list (all-of semantics). */
  lemma MoreTagsShrink(recipes: seq<Recipe>, c: Criteria, more: seq<string>)
    requires forall i :: 0 <= i < |c.dietaryTags| ==> c.dietaryTags[i] in more
    ensures IsSubsequence(FilterRecipes(recipes, c.(dietaryTags := more)), FilterRecipes(recipes, c))
  {
    var strong, weak := KeepsFn(c.(dietaryTags := more)), KeepsFn(c);
    forall i | 0 <= i < |recipes| && strong(recipes[i])
      ensures weak(recipes[i])
    {
      if |c.dietaryTags| > 0 {
        assert |more| > 0 by {
          assert c.dietaryTags[0] in more;
        }
        forall k | 0 <= k < |c.dietaryTags|
          ensures c.dietaryTags[k] in recipes[i].dietaryTags
        {
          var m :| 0 <= m < |more| && more[m] == c.dietaryTags[k];
        }
      }
    }
    FilterMonotone(recipes, strong, weak);
  }

  /** Meal types are any-of: one ticked type the recipe has is enough,
      whatever else is ticked. */
  lemma MealTypesAnyOf(recipe: Recipe, t: MealType, selected: seq<MealType>)
    requires t in recipe.mealType && t in selected
    ensures MatchesMealTypes(selected, recipe)
  {
    var i :| 0 <= i < |recipe.mealType| && recipe.mealType[i] == t;
    assert recipe.mealType[i] in selected;
  }

  // ---------------------------------------------------------------- the pantry-match slider

  /** The initial position of the "Pantry Match" slider, in percent. */
  const DefaultSlider: nat := 70

  /** At least `slider` percent of the recipe's lines are in the pantry, as
      the slider's caption promises. */
  predicate ReachesSlider(pantry: seq<Ingredient>, slider: nat, recipe: Recipe) {
    100.0 * Recipes.MatchRatio(pantry, recipe) >= slider as real
  }

  predicate KeepsAt(c: Criteria, pantry: seq<Ingredient>, slider: nat, recipe: Recipe) {
    Keeps(c, recipe) && ReachesSlider(pantry, slider, recipe)
  }

  function KeepsAtFn(c: Criteria, pantry: seq<Ingredient>, slider: nat): Recipe -> bool {
    (recipe: Recipe) => KeepsAt(c, pantry, slider, recipe)
  }

  /** The pantry view's list with the slider applied: the recipes passing the
      three controls whose match reaches the slider, in order. */
  function FilterPantryRecipes(recipes: seq<Recipe>, c: Criteria, pantry: seq<Ingredient>, slider: nat): (r: seq<Recipe>)
    ensures IsSubsequence(r, recipes)
    ensures forall i :: 0 <= i < |r| ==> Keeps(c, r[i]) && ReachesSlider(pantry, slider, r[i])
    ensures forall i :: 0 <= i < |recipes| && Keeps(c, recipes[i]) && ReachesSlider(pantry, slider, recipes[i]) ==>
              recipes[i] in r
    ensures forall x :: multiset(r)[x] == if KeepsAt(c, pantry, slider, x) then multiset(recipes)[x] else 0
  {
    FilterMultiplicity(recipes, KeepsAtFn(c, pantry, slider));
    Filter(recipes, KeepsAtFn(c, pantry, slider))
  }

  /** The slider only narrows the list: at 0% it lets every recipe through,
      and at any position the list is a subsequence of the unnarrowed one. */
  lemma SliderNarrowsList(recipes: seq<Recipe>, c: Criteria, pantry: seq<Ingredient>, slider: nat)
    ensures FilterPantryRecipes(recipes, c, pantry, 0) == FilterRecipes(recipes, c)
    ensures IsSubsequence(FilterPantryRecipes(recipes, c, pantry, slider), FilterRecipes(recipes, c))
  {
    FilterAgree(recipes, KeepsAtFn(c, pantry, 0), KeepsFn(c));
    FilterMonotone(recipes, KeepsAtFn(c, pantry, slider), KeepsFn(c));
  }

  /** The list as written ignores the slider: with the slider at its initial
      70%, a recipe none of whose lines is in the pantry is still listed,
      while the slider-aware list leaves it out. */
  lemma SliderFiltersNothing(recipe: Recipe, slider: nat)
    requires |recipe.ingredients| > 0 && slider > 0
    ensures FilterRecipes([recipe], NoCriteria) == [recipe]
    ensures !ReachesSlider([], slider, recipe)
    ensures FilterPantryRecipes([recipe], NoCriteria, [], slider) == []
  {
    NoCriteriaKeepsAll([recipe]);
    assert Recipes.NoneAvailable([], recipe.ingredients);
    FilterCons(recipe, [], KeepsAtFn(NoCriteria, [], slider));
  }
}

=== FILE: seqs.dfy ===
/** Sequence helpers shared by every store: JavaScript's `Array.prototype.filter`
    and the ordered-subsequence relation its results satisfy. */
module Seqs {

  /** `sub` is obtained from `s` by deleting elements, keeping the order of the rest. */
  predicate IsSubsequence<T(==)>(sub: seq<T>, s: seq<T>)
    decreases |s|
  {
    if |sub| == 0 then true
    else if |s| == 0 then false
    else (sub[0] == s[0] && IsSubsequence(sub[1..], s[1..])) || IsSubsequence(sub, s[1..])
  }

  /** `Array.prototype.filter`: the elements of `s` that satisfy `p`, in their original order. */
  function Filter<T(==)>(s: seq<T>, p: T -> bool): (r: seq<T>)
    ensures |r| <= |s|
    ensures IsSubsequence(r, s)
    ensures forall i :: 0 <= i < |r| ==> p(r[i]) && r[i] in s
    ensures forall i :: 0 <= i < |s| && p(s[i]) ==> s[i] in r
  {
    if |s| == 0 then []
    else if p(s[0]) then [s[0]] + Filter(s[1..], p)
    else Filter(s[1..], p)
  }

  /** The filter keeps every copy of a kept element: an element satisfying
      `p` occurs in the result as often as in `s`, any other not at all. */
  lemma {:induction false} FilterMultiplicity<T>(s: seq<T>, p: T -> bool)
    ensures forall x :: x in multiset(s) ==> multiset(Filter(s, p))[x] == if p(x) then multiset(s)[x] else 0
    ensures forall x :: x !in multiset(s) ==> x !in multiset(Filter(s, p))
  {
    if |s| > 0 {
      assert s == [s[0]] + s[1..];
      FilterMultiplicity(s[1..], p);
    }
  }

  /** The positions of `s` whose element satisfies `p`. */
  function Positions<T>(s: seq<T>, p: T -> bool): set<nat> {
    set i: nat | i < |s| && p(s[i])
  }

  /** Number of elements satisfying `p` (`s.filter(p).length`). */
  function Count<T(==)>(s: seq<T>, p: T -> bool): (n: nat)
    ensures n <= |s|
  {
    |Filter(s, p)|
  }

  /** The count is the number of positions holding an element that satisfies `p`. */
  lemma {:induction false} CountPositions<T>(s: seq<T>, p: T -> bool)
    ensures Count(s, p) == |Positions(s, p)|
    decreases |s|
  {
    if |s| > 0 {
      var front, last := s[..|s| - 1], s[|s| - 1];
      assert s == front + [last];
      CountPositions(front, p);
      FilterConcat(front, [last], p);
      FilterCons(last, [], p);
      PositionsSnoc(s, p);
    }
  }

  // The positions of `s` are those of its front plus, maybe, the last one.
  lemma PositionsSnoc<T>(s: seq<T>, p: T -> bool)
    requires |s| > 0
    ensures |Positions(s, p)| == |Positions(s[..|s| - 1], p)| + (if p(s[|s| - 1]) then 1 else 0)
  {
    var n := |s| - 1;
    var a, b := Positions(s[..n], p), Positions(s, p);
    assert forall i :: 0 <= i < n ==> s[..n][i] == s[i];
    if p(s[n]) {
      assert b == a + {n};
      assert n !in a;
    } else {
      assert b == a;
    }
  }

  /** `s.map(x => hit(x) ? f(x) : x)`: the elements satisfying `hit` are
      replaced by their image under `f`; the rest, and the length, stay. */
  function MapWhere<T>(s: seq<T>, hit: T -> bool, f: T -> T): (r: seq<T>)
    ensures |r| == |s|
    ensures forall i :: 0 <= i < |s| && hit(s[i]) ==> r[i] == f(s[i])
    ensures forall i :: 0 <= i < |s| && !hit(s[i]) ==> r[i] == s[i]
  {
    seq(|s|, i requires 0 <= i < |s| => if hit(s[i]) then f(s[i]) else s[i])
  }

  /** Replacing nothing, or replacing by the identity, changes nothing. */
  lemma MapWhereNoOp<T>(s: seq<T>, hit: T -> bool, f: T -> T)
    requires forall i :: 0 <= i < |s| && hit(s[i]) ==> f(s[i]) == s[i]
    ensures MapWhere(s, hit, f) == s
  {
  }

  /** One step of the filter, as a lemma callers can use on `[x] + s`. */
  lemma FilterCons<T>(x: T, s: seq<T>, p: T -> bool)
    ensures Filter([x] + s, p) == (if p(x) then [x] else []) + Filter(s, p)
  {
    assert ([x] + s)[1..] == s;
  }

  /** Filtering with a predicate every element satisfies changes nothing. */
  lemma {:induction false} FilterKeepsAll<T>(s: seq<T>, p: T -> bool)
    requires forall i :: 0 <= i < |s| ==> p(s[i])
    ensures Filter(s, p) == s
  {
    if |s| > 0 {
      FilterKeepsAll(s[1..], p);
    }
  }

  /** Filtering twice with the same predicate is filtering once. */
  lemma FilterIdempotent<T>(s: seq<T>, p: T -> bool)
    ensures Filter(Filter(s, p), p) == Filter(s, p)
  {
    var r := Filter(s, p);
    forall i | 0 <= i < |r|
      ensures p(r[i])
    {
      assert r[i] in r;
    }
    FilterKeepsAll(r, p);
  }

  /** The filter keeps every element exactly when every element satisfies `p`. */
  lemma {:induction false} FilterFullLength<T>(s: seq<T>, p: T -> bool)
    ensures |Filter(s, p)| == |s| <==> forall i :: 0 <= i < |s| ==> p(s[i])
  {
    if |s| > 0 {
      FilterFullLength(s[1..], p);
      if |Filter(s, p)| == |s| {
        assert p(s[0]);
        forall i | 0 <= i < |s|
          ensures p(s[i])
        {
          if i > 0 {
            assert s[i] == s[1..][i - 1];
          }
        }
      } else {
        SomeFailsWhenShorter(s, p);
      }
    }
  }

  // Contrapositive helper for FilterFullLength: a shorter result means some element fails `p`.
  lemma SomeFailsWhenShorter<T>(s: seq<T>, p: T -> bool)
    requires |Filter(s, p)| != |s|
    ensures exists i :: 0 <= i < |s| && !p(s[i])
  {
    if forall i :: 0 <= i < |s| ==> p(s[i]) {
      FilterKeepsAll(s, p);
    }
  }

  /** A filter that returns nothing means no element satisfies `p`. */
  lemma {:induction false} FilterEmpty<T>(s: seq<T>, p: T -> bool)
    ensures Filter(s, p) == [] <==> forall i :: 0 <= i < |s| ==> !p(s[i])
  {
    if |s| > 0 {
      FilterEmpty(s[1..], p);
      if Filter(s, p) == [] {
        forall i | 0 <= i < |s|
          ensures !p(s[i])
        {
          if i > 0 {
            assert s[i] == s[1..][i - 1];
          }
        }
      }
    }
  }

  /** A stronger predicate selects a subsequence of what a weaker one selects. */
  lemma {:induction false} FilterMonotone<T>(s: seq<T>, strong: T -> bool, weak: T -> bool)
    requires forall i :: 0 <= i < |s| && strong(s[i]) ==> weak(s[i])
    ensures IsSubsequence(Filter(s, strong), Filter(s, weak))
  {
    if |s| > 0 {
      FilterMonotone(s[1..], strong, weak);
      var a, b := Filter(s[1..], strong), Filter(s[1..], weak);
      if strong(s[0]) {
        assert Filter(s, strong) == [s[0]] + a;
        assert Filter(s, weak) == [s[0]] + b;
        assert ([s[0]] + a)[1..] == a;
        assert ([s[0]] + b)[1..] == b;
      } else if weak(s[0]) {
        assert Filter(s, weak) == [s[0]] + b;
        assert ([s[0]] + b)[1..] == b;
      }
    }
  }

  /** Filters with predicates that agree on every element give the same result. */
  lemma {:induction false} FilterAgree<T>(s: seq<T>, p: T -> bool, q: T -> bool)
    requires forall i :: 0 <= i < |s| ==> p(s[i]) == q(s[i])
    ensures Filter(s, p) == Filter(s, q)
  {
    if |s| > 0 {
      FilterAgree(s[1..], p, q);
    }
  }

  /** Filtering a filtered sequence with a predicate stronger than the first
      is the same as filtering once with the stronger predicate. */
  lemma {:induction false} FilterNested<T>(s: seq<T>, weak: T -> bool, strong: T -> bool)
    requires forall i :: 0 <= i < |s| && strong(s[i]) ==> weak(s[i])
    ensures Filter(Filter(s, weak), strong) == Filter(s, strong)
  {
    if |s| > 0 {
      FilterNested(s[1..], weak, strong);
      if weak(s[0]) {
        FilterCons(s[0], Filter(s[1..], weak), strong);
      }
    }
  }

  /** Filtering distributes over concatenation. */
  lemma {:induction false} FilterConcat<T>(a: seq<T>, b: seq<T>, p: T -> bool)
    ensures Filter(a + b, p) == Filter(a, p) + Filter(b, p)
  {
    if |a| == 0 {
      assert a + b == b;
    } else {
      assert (a + b)[1..] == a[1..] + b;
      FilterConcat(a[1..], b, p);
    }
  }
}

=== FILE: shopping.dfy ===
/** The shopping-list store (`src/context/ShoppingListContext.tsx`): an
    ordered checklist of items, each an ingredient plus a `checked` flag. */
module ShoppingList {
  import opened Types
  import opened Seqs
  import Pantry

  /** `Partial<ShoppingListItem>`: the ingredient fields and `checked`. */
  datatype ItemPatch = ItemPatch(fields: Pantry.IngredientPatch, checked: Option<bool>)

  /** The object spread `{ ...item, ...updates }`. */
  function ApplyPatch(item: ShoppingListItem, patch: ItemPatch): ShoppingListItem {
    ShoppingListItem(Pantry.ApplyPatch(item.ingredient, patch.fields), patch.checked.GetOr(item.checked))
  }

  function Id(item: ShoppingListItem): string {
    item.ingredient.id
  }

  /** No item of `items` carries `id`. */
  predicate Fresh(items: seq<ShoppingListItem>, id: string) {
    forall i :: 0 <= i < |items| ==> Id(items[i]) != id
  }

  predicate UniqueIds(items: seq<ShoppingListItem>) {
    forall i, j :: 0 <= i < j < |items| ==> Id(items[i]) != Id(items[j])
  }

  /** `addToShoppingList`: appends one unchecked item under a fresh id; an
      item with the same name is not merged. */
  function AddToShoppingList(items: seq<ShoppingListItem>, draft: Ingredient, freshId: string): (r: seq<ShoppingListItem>)
    requires Fresh(items, freshId)
    ensures |r| == |items| + 1 && r[..|items|] == items
    ensures !r[|items|].checked && Id(r[|items|]) == freshId
    ensures r[|items|].ingredient.name == draft.name && r[|items|].ingredient.category == draft.category
    ensures r[|items|].ingredient.quantity == draft.quantity && r[|items|].ingredient.unit == draft.unit
  {
    items + [ShoppingListItem(draft.(id := freshId), false)]
  }

  function NotId(id: string): ShoppingListItem -> bool {
    (item: ShoppingListItem) => Id(item) != id
  }

  /** `removeFromShoppingList`: drops every item with `id`, keeps the rest in order. */
  function RemoveFromShoppingList(items: seq<ShoppingListItem>, id: string): (r: seq<ShoppingListItem>)
    ensures Fresh(r, id)
    ensures IsSubsequence(r, items)
    ensures forall i :: 0 <= i < |items| && Id(items[i]) != id ==> items[i] in r
    ensures forall x :: multiset(r)[x] == if Id(x) == id then 0 else multiset(items)[x]
    ensures Fresh(items, id) ==> r == items
  {
    var r := Filter(items, NotId(id));
    FilterMultiplicity(items, NotId(id));
    if Fresh(items, id) then
      FilterKeepsAll(items, NotId(id));
      r
    else
      r
  }

  /** `updateShoppingListItem`: merges the patch into the items carrying
      `id`; every other item, and the length, stay as they are. */
  function UpdateShoppingListItem(items: seq<ShoppingListItem>, id: string, patch: ItemPatch): (r: seq<ShoppingListItem>)
    ensures |r| == |items|
    ensures forall i :: 0 <= i < |items| && Id(items[i]) == id ==> r[i] == ApplyPatch(items[i], patch)
    ensures forall i :: 0 <= i < |items| && Id(items[i]) != id ==> r[i] == items[i]
  {
    MapWhere(items, HasId(id), Patcher(patch))
  }

  function HasId(id: string): ShoppingListItem -> bool {
    (item: ShoppingListItem) => Id(item) == id
  }

  function Patcher(patch: ItemPatch): ShoppingListItem -> ShoppingListItem {
    (item: ShoppingListItem) => ApplyPatch(item, patch)
  }

  /** The patch that changes nothing. */
  const NoChanges := ItemPatch(Pantry.NoChanges, None)

  /** An update for an id no item carries, or with an empty patch, changes nothing. */
  lemma UpdateNoOp(items: seq<ShoppingListItem>, id: string, patch: ItemPatch)
    requires Fresh(items, id) || patch == NoChanges
    ensures UpdateShoppingListItem(items, id, patch) == items
  {
  }

  /** `toggleItemChecked`: flips `checked` on the items carrying `id` and
      changes nothing else. */
  function ToggleItemChecked(items: seq<ShoppingListItem>, id: string): (r: seq<ShoppingListItem>)
    ensures |r| == |items|
    ensures forall i :: 0 <= i < |items| ==> r[i].ingredient == items[i].ingredient
    ensures forall i :: 0 <= i < |items| ==> (r[i].checked != items[i].checked <==> Id(items[i]) == id)
  {
    MapWhere(items, HasId(id), Flip())
  }

  function Flip(): ShoppingListItem -> ShoppingListItem {
    (item: ShoppingListItem) => item.(checked := !item.checked)
  }

  /** `clearShoppingList`: no item is left to check or clear, and every id is
      free for the next add. */
  function ClearShoppingList(items: seq<ShoppingListItem>): (r: seq<ShoppingListItem>)
    ensures forall id :: Fresh(r, id)
    ensures UniqueIds(r)
    ensures ClearCheckedItems(r) == r
  {
    []
  }

  function Unchecked(): ShoppingListItem -> bool {
    (item: ShoppingListItem) => !item.checked
  }

  /** `clearCheckedItems`: no checked item survives and every unchecked item
      is kept, in order. */
  function ClearCheckedItems(items: seq<ShoppingListItem>): (r: seq<ShoppingListItem>)
    ensures IsSubsequence(r, items)
    ensures forall i :: 0 <= i < |r| ==> !r[i].checked
    ensures forall i :: 0 <= i < |items| && !items[i].checked ==> items[i] in r
    ensures forall x :: multiset(r)[x] == if x.checked then 0 else multiset(items)[x]
  {
    FilterMultiplicity(items, Unchecked());
    Filter(items, Unchecked())
  }

  /** Toggling twice restores the list. */
  lemma ToggleTwice(items: seq<ShoppingListItem>, id: string)
    ensures ToggleItemChecked(ToggleItemChecked(items, id), id) == items
  {
    var r := ToggleItemChecked(ToggleItemChecked(items, id), id);
    assert forall i :: 0 <= i < |items| ==> r[i] == items[i];
  }

  /** Removing twice is removing once. */
  lemma RemoveIdempotent(items: seq<ShoppingListItem>, id: string)
    ensures RemoveFromShoppingList(RemoveFromShoppingList(items, id), id) == RemoveFromShoppingList(items, id)
  {
  }

  /** Clearing checked items twice is clearing them once, and a list with
      nothing checked is left alone. */
  lemma ClearCheckedIdempotent(items: seq<ShoppingListItem>)
    ensures ClearCheckedItems(ClearCheckedItems(items)) == ClearCheckedItems(items)
    ensures (forall i :: 0 <= i < |items| ==> !items[i].checked) ==> ClearCheckedItems(items) == items
  {
    FilterIdempotent(items, Unchecked());
    if forall i :: 0 <= i < |items| ==> !items[i].checked {
      FilterKeepsAll(items, Unchecked());
    }
  }

  /** A freshly added item survives `clearCheckedItems`, as it starts unchecked. */
  lemma AddedSurvivesClearChecked(items: seq<ShoppingListItem>, draft: Ingredient, freshId: string)
    requires Fresh(items, freshId)
    ensures ShoppingListItem(draft.(id := freshId), false) in ClearCheckedItems(AddToShoppingList(items, draft, freshId))
  {
    var r := AddToShoppingList(items, draft, freshId);
    assert r[|items|] == ShoppingListItem(draft.(id := freshId), false);
  }

  /** Adding under a fresh id keeps ids unique. */
  lemma AddKeepsIdsUnique(items: seq<ShoppingListItem>, draft: Ingredient, freshId: string)
    requires UniqueIds(items) && Fresh(items, freshId)
    ensures UniqueIds(AddToShoppingList(items, draft, freshId))
  {
  }

  /** Cleared, the list is empty, whatever it held. */
  lemma ClearEmpties(items: seq<ShoppingListItem>)
    ensures ClearShoppingList(items) == []
    ensures ClearCheckedItems(ClearShoppingList(items)) == []
  {
  }
}

=== FILE: text.dfy ===
/** String helpers standing in for the JavaScript string methods the app uses:
    `toLowerCase` (ASCII only), `trim` (ASCII white space only), `includes`,
    and the decimal rendering of an array index inside a template literal. */
module Text {

  predicate IsUpper(c: char) {
    'A' <= c <= 'Z'
  }

  function LowerChar(c: char): char {
    if IsUpper(c) then (c as int + 32) as char else c
  }

  /** `toLowerCase`, restricted to the ASCII letters. */
  function Lower(s: string): (r: string)
    ensures |r| == |s|
    ensures forall i :: 0 <= i < |r| ==> !IsUpper(r[i])
    ensures forall i :: 0 <= i < |r| && !IsUpper(s[i]) ==> r[i] == s[i]
    ensures forall i :: 0 <= i < |s| && IsUpper(s[i]) ==> r[i] == (s[i] as int + 32) as char
  {
    seq(|s|, i requires 0 <= i < |s| => LowerChar(s[i]))
  }

  /** `a.toLowerCase() === b.toLowerCase()`. */
  predicate EqualsIgnoreCase(a: string, b: string) {
    Lower(a) == Lower(b)
  }

  /** Lowering is idempotent, so comparing lowered strings is an equivalence on case variants. */
  lemma LowerIdempotent(s: string)
    ensures Lower(Lower(s)) == Lower(s)
  {
  }

  /** The white-space characters `trim` removes, restricted to ASCII. */
  predicate IsSpace(c: char) {
    c == ' ' || c == '\t' || c == '\n' || c == '\r' || c == '\U{000B}' || c == '\U{000C}'
  }

  /** Drops leading white space. */
  function TrimStart(s: string): (r: string)
    ensures |r| <= |s| && r == s[|s| - |r|..]
    ensures |r| > 0 ==> !IsSpace(r[0])
    ensures forall i :: 0 <= i < |s| - |r| ==> IsSpace(s[i])
  {
    if |s| > 0 && IsSpace(s[0]) then TrimStart(s[1..]) else s
  }

  /** Drops trailing white space. */
  function TrimEnd(s: string): (r: string)
    ensures |r| <= |s| && r == s[..|r|]
    ensures |r| > 0 ==> !IsSpace(r[|r| - 1])
    ensures forall i :: |r| <= i < |s| ==> IsSpace(s[i])
  {
    if |s| > 0 && IsSpace(s[|s| - 1]) then TrimEnd(s[..|s| - 1]) else s
  }

  /** `String.prototype.trim`. */
  function Trim(s: string): string {
    TrimEnd(TrimStart(s))
  }

  /** `s.trim() !== ""` holds exactly when `s` has a character that is not white space. */
  lemma TrimEmptyIffBlank(s: string)
    ensures Trim(s) == "" <==> forall i :: 0 <= i < |s| ==> IsSpace(s[i])
  {
    var t := TrimStart(s);
    if Trim(s) == "" {
      assert |t| == 0;
    } else {
      assert t[0] == s[|s| - |t|];
    }
  }

  /** `t` occurs in `s` starting at index `i`. */
  predicate OccursAt(s: string, t: string, i: int) {
    0 <= i && i + |t| <= |s| && s[i..i + |t|] == t
  }

  /** `String.prototype.includes`: some suffix of `s` starts with `t`. */
  function Contains(s: string, t: string): (r: bool)
    ensures r <==> exists i :: OccursAt(s, t, i)
  {
    if |t| <= |s| && s[..|t|] == t then
      assert OccursAt(s, t, 0);
      true
    else if |s| == 0 then
      assert forall i :: !OccursAt(s, t, i);
      false
    else
      var rest := Contains(s[1..], t);
      assert forall i :: OccursAt(s[1..], t, i) ==> OccursAt(s, t, i + 1);
      assert forall i :: i > 0 && OccursAt(s, t, i) ==> OccursAt(s[1..], t, i - 1);
      rest
  }

  /** Every string contains the empty string, as `includes("")` is always true. */
  lemma ContainsEmpty(s: string)
    ensures Contains(s, "")
  {
    assert OccursAt(s, "", 0);
  }

  function DigitChar(d: nat): (c: char)
    requires d < 10
  {
    ('0' as int + d) as char
  }

  /** Decimal rendering of a natural number, as a template literal prints an array index. */
  function NatToString(n: nat): (r: string)
    ensures 1 <= |r|
    ensures forall i :: 0 <= i < |r| ==> '0' <= r[i] <= '9'
    ensures n < 10 <==> |r| == 1
  {
    if n < 10 then [DigitChar(n)] else NatToString(n / 10) + [DigitChar(n % 10)]
  }

  /** Different numbers render differently. */
  lemma {:induction false} NatToStringInjective(a: nat, b: nat)
    requires NatToString(a) == NatToString(b)
    ensures a == b
  {
    if a >= 10 && b >= 10 {
      var sa, sb := NatToString(a), NatToString(b);
      assert sa[..|sa| - 1] == NatToString(a / 10);
      assert sb[..|sb| - 1] == NatToString(b / 10);
      NatToStringInjective(a / 10, b / 10);
      assert sa[|sa| - 1] == DigitChar(a % 10);
      assert sb[|sb| - 1] == DigitChar(b % 10);
    } else if a < 10 && b < 10 {
      assert NatToString(a)[0] == DigitChar(a);
    }
  }
}

=== FILE: types.dfy ===
/** The entities of the app's domain (`src/types/index.ts`), as immutable values. */
module Types {

  /** An optional value; `None` stands for a JavaScript `undefined`. */
  datatype Option<T> = None | Some(value: T) {
    /** The carried value, or `default` when there is none. */
    function GetOr(default: T): T {
      match this
      case Some(v) => v
      case None => default
    }
  }

  /** A result that either carries a value or names why it could not be produced. */
  datatype Result<T, E> = Success(value: T) | Failure(error: E)

  /** The closed set of pantry categories. */
  datatype IngredientCategory = Produce | Meat | Dairy | Grains | Seasonings | Other

  /** The closed set of meal slots. */
  datatype MealType = Breakfast | Lunch | Dinner | Snack | Dessert

  const AllCategories: seq<IngredientCategory> := [Produce, Meat, Dairy, Grains, Seasonings, Other]

  /** The meal types in the order the recipe list and recipe form offer them. */
  const AllMealTypes: seq<MealType> := [Breakfast, Lunch, Dinner, Snack, Dessert]

  /** Both enumerations are closed: the listings name every value exactly once. */
  lemma EnumerationsClosed()
    ensures |AllCategories| == 6 && forall c: IngredientCategory :: c in AllCategories
    ensures forall i, j :: 0 <= i < j < |AllCategories| ==> AllCategories[i] != AllCategories[j]
    ensures |AllMealTypes| == 5 && forall m: MealType :: m in AllMealTypes
    ensures forall i, j :: 0 <= i < j < |AllMealTypes| ==> AllMealTypes[i] != AllMealTypes[j]
  {
    forall c: IngredientCategory
      ensures c in AllCategories
    {
      match c
      case Produce => assert AllCategories[0] == c;
      case Meat => assert AllCategories[1] == c;
      case Dairy => assert AllCategories[2] == c;
      case Grains => assert AllCategories[3] == c;
      case Seasonings => assert AllCategories[4] == c;
      case Other => assert AllCategories[5] == c;
    }
    forall m: MealType
      ensures m in AllMealTypes
    {
      match m
      case Breakfast => assert AllMealTypes[0] == m;
      case Lunch => assert AllMealTypes[1] == m;
      case Dinner => assert AllMealTypes[2] == m;
      case Snack => assert AllMealTypes[3] == m;
      case Dessert => assert AllMealTypes[4] == m;
    }
  }

  /** A pantry entry; quantity and unit are optional. */
  datatype Ingredient = Ingredient(
    id: string,
    name: string,
    category: IngredientCategory,
    quantity: Option<string>,
    unit: Option<string>)

  /** An ingredient line of a recipe; quantity and unit are mandatory strings. */
  datatype RecipeIngredient = RecipeIngredient(
    id: string,
    name: string,
    quantity: string,
    unit: string,
    optional: bool,
    substitutes: Option<seq<string>>)

  /** A recipe; ingredients and steps are ordered. Times are in minutes. */
  datatype Recipe = Recipe(
    id: string,
    title: string,
    author: string,
    description: string,
    imageUrl: string,
    ingredients: seq<RecipeIngredient>,
    steps: seq<string>,
    dietaryTags: seq<string>,
    mealType: seq<MealType>,
    prepTime: int,
    cookTime: int,
    servings: int)
  {
    /** The total time the recipe card and the recipe detail page display. */
    function TotalTime(): int {
      prepTime + cookTime
    }
  }

  /** A shopping-list row: an ingredient plus whether it has been ticked off. */
  datatype ShoppingListItem = ShoppingListItem(ingredient: Ingredient, checked: bool)

  /** A moment in local time: a calendar day number and an offset within that day.
      Instants are ordered by day first, then by offset. */
  datatype Instant = Instant(day: int, time: nat)

  predicate AtOrBefore(a: Instant, b: Instant) {
    a.day < b.day || (a.day == b.day && a.time <= b.time)
  }

  /** One meal slot of a plan. */
  datatype Meal = Meal(mealType: MealType, recipeId: string)

  /** The meals planned for one date. The type itself allows a repeated meal type. */
  datatype MealPlan = MealPlan(id: string, date: Instant, meals: seq<Meal>)
}
